=== FILE: README.md ===
# Liam operations scripts in Dafny

A model of the decision logic in the Liam repository's two operations
scripts. Every effect outside the scripts is replaced by an input value:

- the contents of `.env.local` are its lines;
- the backup directory is a list of (name, modification time) records;
- the clock is integer seconds and a minute-resolution stamp;
- every external tool (pg_dump, psql, gzip, gunzip, aws, docker-compose,
  kubectl, pm2, pnpm, `which`) is a boolean exit status;
- the operator's reply to the restore prompt is a string;
- the health endpoint is a sequence of probe outcomes.

The results are the scripts' return values, the external command lines they
launch, and the directory they leave behind.

`setup_agents.py` is covered by these modules:

- `EnvFile` covers the `.env.local` reader. There are two variants: the
  non-stripping parser inside `validate_environment` and the stripping
  `_load_env`. It also covers the required-variable check.
- `Paths` covers the parts of `pathlib` the backups use: `name`, `suffix`
  and `with_suffix('')`.
- `Backups` covers three things:
  - the `backup-YYYY-MM-DD-HH-MM.sql[.gz]` artifact names;
  - the `backup-*.sql*` pattern;
  - the retention sweep of `_cleanup_old_backups` and the newest-first
    listing of `list_backups`.
- `BackupOps` covers the control flow of `backup_database`, `_upload_to_s3`
  and `restore_database`.

`start.py` is covered by these modules:

- `Health` covers five things:
  - `check_health`, reduced to its outcome;
  - the bounded retry of `wait_for_health`, written as an imperative method
    with loop invariants and checked against a recursive reference
    definition;
  - the uptime split;
  - the memory lookup;
  - one iteration of `monitor`.
- `Lifecycle` covers `start` and `stop` dispatch, `start_docker`,
  `start_traditional`, `start_kubernetes`, `stop_docker`,
  `stop_traditional`, `restart`, and the command list built by `logs`.

These modules support them:

- `Wrappers` provides `Option`.
- `Commands` provides the command-line type.
- `Text` provides `str.strip` over Python's whitespace set, `find`,
  prefixes and substrings, lowercasing, and code-point string order.
- `Decimal` provides `str(int)`, integer parsing and zero padding.

Four behaviours of the code are easy to get wrong, and the model keeps them:

- **A failed gzip fails the backup.** A non-zero gzip exit raises
  `CalledProcessError`. The `except` at setup_agents.py:154-156 then returns
  `False`, so the upload and the sweep never run (`BackupOps.BackupDatabase`).
- **A new backup can be swept.** setup_agents.py:150 runs the sweep after
  the new backup is written. The sweep computes the cutoff
  `time.time() - retention_days * 86400` at setup_agents.py:302, and
  setup_agents.py:304-307 unlinks every `backup-*.sql*` entry modified
  before it. With
  `retention_days = 0`, the backup just written is deleted when its
  modification time is before the sweep's clock.
  `BackupOps.NewArtifactSurvivesIff` states exactly when it survives.
- **A failed dump leaves a file.** setup_agents.py:130 opens the `.sql`
  file before pg_dump runs at setup_agents.py:131-135. A failed dump
  therefore leaves that file in the directory (`BackupOps.BackupDatabase`).
- **Restore confirms before unpacking.** setup_agents.py:170-174 asks for
  confirmation first. setup_agents.py:176-181 then reads the database URL,
  and only after that does setup_agents.py:185-188 run gunzip
  (`BackupOps.RestoreDatabase`).

## Model

| member | source | states |
|---|---|---|
| Text.Strip | setup_agents.py:85 | `line.strip()`: the result is the input with a run of whitespace removed at each end; a non-empty result starts and ends with a non-space; it is empty exactly when the line is all whitespace |
| Text.StripUnique | setup_agents.py:290 | any reading of a line as whitespace + core + whitespace whose core has non-space ends is the line's strip |
| Text.LexLessMeans | setup_agents.py:212 | Python's string `<`, as the sort uses it: `a < b` iff `a` is a proper prefix of `b`, or the two agree up to some index where `a` has the smaller character |
| Decimal.IntToStringRoundTrip | start.py:194 | `str(lines)` parses back to the same integer, negative numbers included |
| Decimal.PadOrder | setup_agents.py:124 | two numbers zero-padded to the same width compare as text exactly as they compare as numbers |
| Decimal.PadRoundTrip | setup_agents.py:124 | a zero-padded field reads back as its number |
| Decimal.IntToString | start.py:194 | `str(n)`: a `-` exactly for negative numbers, then decimal digits without a leading zero that read back as `abs(n)` |
| EnvFile.SplitAssignment | setup_agents.py:84-88 | a line yields an entry iff its stripped form is non-empty, does not start with `#`, and holds `=`; then key + `=` + value is the stripped line and the key holds no `=` |
| EnvFile.ParseLine | setup_agents.py:289-293 | `_load_env` yields an entry for the same lines as `validate_environment`, with key and value each stripped; the other parser keeps them |
| EnvFile.Collect | setup_agents.py:292-293 | the dictionary's keys are exactly the assigned keys, and each key holds the value of its last assignment |
| EnvFile.CollectFromLastAssignment | setup_agents.py:292-293 | every key of the dictionary holds the value of some assignment of that key that no later line overrides |
| EnvFile.LaterAssignmentWins | setup_agents.py:88 | when a key is assigned and not reassigned afterwards, its value is the later one whatever came before |
| EnvFile.SplitOfAssignment | setup_agents.py:284-294 | `KEY=VALUE` with no padding splits into exactly that key and value, even when the value holds `=` |
| EnvFile.SpacedAssignment | setup_agents.py:85-88 | `K = V` gives key `K ` and value ` V` to `validate_environment`, but `K` and `V` to `_load_env` |
| EnvFile.MissingKeys | setup_agents.py:96-100 | a required name is reported iff it is absent or empty, and the report keeps the required-list order |
| EnvFile.CheckKeys | setup_agents.py:96-107 | passes iff nothing is missing; otherwise reports the missing names |
| EnvFile.ValidateEnvironment | setup_agents.py:77-79 | a missing file is its own failure; otherwise the non-stripping dictionary is checked against the three required names |
| EnvFile.ValidIffRequiredSet | setup_agents.py:73-107 | validation passes iff the file exists and OPENAI_API_KEY, POSTGRES_URL and NEXT_PUBLIC_BASE_URL are all present and non-empty |
| EnvFile.DatabaseUrl | setup_agents.py:117-118 | a URL is found iff the file exists and some line assigns POSTGRES_URL under the stripping parser; the URL found is the value of the last such line |
| Paths.BaseName | setup_agents.py:311 | `path.name` is the text after the last `/`: a slash-free tail of the path |
| Paths.Suffix | setup_agents.py:185 | `suffix` is non-empty iff the final component's last `.` is neither its first nor its last character, and then it is the component's tail from that `.`; it is a tail of the path holding exactly one `.` and no `/` |
| Paths.WithoutSuffix | setup_agents.py:188 | `with_suffix('')` followed by the suffix gives back the path |
| Paths.GzRoundTrip | setup_agents.py:142 | appending `.gz` to a path with a non-empty name gives suffix `.gz`, and removing that suffix gives the path back |
| Backups.StampText | setup_agents.py:124 | `%Y-%m-%d-%H-%M`: sixteen characters with dashes at positions 4, 7, 10 and 13; the four-digit year and the two-digit month, day, hour and minute each read back as that field |
| Backups.DumpName | setup_agents.py:124-125 | `backup-<timestamp>.sql`: the prefix `backup-`, then the sixteen-character timestamp, then `.sql` |
| Backups.ArtifactName | setup_agents.py:142 | the artifact's name begins with the dump's name; it is longer exactly when compressed, and then the extra tail is `.gz` |
| Backups.MatchesPattern | setup_agents.py:304 | `backup-*.sql*`: the name starts with `backup-` and `.sql` occurs at some position at or after the end of that prefix |
| Backups.Cutoff | setup_agents.py:302 | the cutoff is `now - retention_days * 24 * 60 * 60`; it lies at or before now iff the retention is not negative |
| Backups.StampTextOrder | setup_agents.py:124 | `%Y-%m-%d-%H-%M` texts compare as their minutes compare, and all have the same length |
| Backups.ArtifactNameOrder | setup_agents.py:124-125 | artifacts from an earlier minute sort before later ones whatever their compression; the `.sql` of a minute sorts before its `.sql.gz` |
| Backups.ArtifactMatchesPattern | setup_agents.py:304 | every artifact `backup_database` writes matches `backup-*.sql*` |
| Backups.ArtifactNameNoSlash | setup_agents.py:125 | artifact names are non-empty and contain no `/`, so they are the `name` of their path |
| Backups.KeptFiles | setup_agents.py:304-307 | an entry is kept iff it was present and is not both matching and older than the cutoff |
| Backups.ExpiredFiles | setup_agents.py:304-307 | an entry is removed iff it was present, matches the pattern and is older than the cutoff |
| Backups.CleanupOldBackups | setup_agents.py:296-307 | a missing directory is left alone; otherwise exactly the expired entries go and all others stay |
| Backups.SweepPartition | setup_agents.py:304-307 | kept and removed entries together are the original entries, counted with multiplicity |
| Backups.SweepLaterCutoff | setup_agents.py:302 | sweeping at one cutoff and then a later one equals sweeping once at the later one |
| Backups.CleanupIdempotent | setup_agents.py:296-307 | a second sweep at the same time and retention removes nothing and changes nothing |
| Backups.PatternNames | setup_agents.py:212 | the glob yields only names of entries matching `backup-*.sql*`, every matching entry's name, and each matching name exactly as often as entries carry it |
| Backups.InsertDescending | setup_agents.py:212 | inserting into a descending list keeps it descending and adds exactly that name |
| Backups.SortDescending | setup_agents.py:212 | `sorted(..., reverse=True)`: the result is descending and a permutation of the input |
| Backups.ListBackups | setup_agents.py:206-214 | nothing for a missing directory; otherwise the matching names, each once per entry, largest first |
| Backups.ListNewestFirst | setup_agents.py:212 | in the listing, no artifact stands before an artifact of a later minute |
| BackupOps.UsableUrl | setup_agents.py:117-121 | a URL is usable iff `_load_env` finds POSTGRES_URL and it is non-empty |
| BackupOps.MakeDir | setup_agents.py:114 | `mkdir(exist_ok=True)`: an existing directory keeps its entries, and a missing one is created empty |
| BackupOps.Without | setup_agents.py:141 | gzip removing the `.sql` file: removing a name keeps exactly the entries with other names |
| BackupOps.Put | setup_agents.py:130 | `open(file, 'w')` leaves the new entry plus every entry of a different name |
| BackupOps.UploadToS3 | setup_agents.py:309-320 | exactly one command, `aws s3 cp <path> s3://<bucket>/<file name>`; no result flows back |
| BackupOps.Compressed | setup_agents.py:139-142 | after dump and gzip the artifact is present, no `.sql` of that name remains when compressing, unrelated entries stay, and nothing else is in the directory |
| BackupOps.BackupCommands | setup_agents.py:129-147 | no command without a URL; otherwise pg_dump first; gzip second iff the dump succeeded and compression is on; after a failed dump only pg_dump; the only `aws` command is the artifact's upload, last, iff the dump (and gzip when compressing) succeeded and a bucket is named |
| BackupOps.BackupFlow | setup_agents.py:109-156 | success iff the URL is usable, the dump succeeds and, when compressing, gzip succeeds; the commands are exactly `BackupCommands`; without a URL nothing changes; after a failed dump or gzip the directory is the old entries of other names plus the `.sql` file, and nothing is swept; the sweep runs iff successful |
| BackupOps.BackupDatabase | setup_agents.py:109-156 | the same outcome for the whole call: success iff usable URL, dump, and gzip when asked; upload of the artifact's path iff successful with a non-empty bucket; the commands launched are exactly those the gates allow |
| BackupOps.DumpGatesCommands | setup_agents.py:129-152 | after a failed dump at most pg_dump was launched; gzip runs only after a successful dump when compressing; any upload is the artifact's, launched only when the backup succeeded with a bucket |
| BackupOps.BackupSteps | setup_agents.py:113-143 | without a URL nothing is launched and the directory exists; pg_dump comes first and gzip second; a failed dump or gzip leaves exactly the directory's other entries plus the `.sql` file; a compressed success leaves no `.sql` |
| BackupOps.UploadFailureSwallowed | setup_agents.py:146-147 | the upload's exit status changes nothing about the backup's result or effects |
| BackupOps.SweptAfterDump | setup_agents.py:150 | after the dump, the sweep keeps the new artifact iff its time is at or after the cutoff and removes it otherwise; non-matching entries survive |
| BackupOps.NewArtifactSurvivesIff | setup_agents.py:150 | after a successful backup the new artifact remains iff its modification time is not before `now - days * 86400` |
| BackupOps.OtherFilesUntouched | setup_agents.py:304 | a successful backup leaves every entry that does not match `backup-*.sql*` in place |
| BackupOps.UploadedObjectName | setup_agents.py:311-316 | the uploaded object key is the bucket, `/`, and the artifact name, `.gz` included when compressing |
| BackupOps.PlainPath | setup_agents.py:185-188 | a `.gz` path is read through the path with `.gz` removed; any other path as is |
| BackupOps.Confirmed | setup_agents.py:172 | `response.lower() == 'yes'` holds exactly for the three-letter answers `y`, `e`, `s` in either case |
| BackupOps.RestoreCommands | setup_agents.py:185-196 | at most two commands, and none without a URL; gunzip comes first iff unpacking, and psql comes last iff the file is read, so psql can run at most once |
| BackupOps.RestoreFlow | setup_agents.py:158-204 | the restore gates in order: missing file fails silently, dry run succeeds with no prompt, then confirmation, URL, gunzip for `.gz`, and psql decides; the commands are exactly `RestoreCommands` for those gates: gunzip iff confirmed with a URL and a `.gz` path, then psql iff the file to read is ready |
| BackupOps.RestoreDatabase | setup_agents.py:158-204 | the operator is asked iff the file exists and it is not a dry run; any answer other than `yes` (any case) fails before any command; success iff all gates pass; the commands are exactly `RestoreCommands`: gunzip first when its gates pass, then psql once when the file to read is ready |
| BackupOps.RestoreReadsSibling | setup_agents.py:185-190 | restoring `p.gz` runs `gunzip -k p.gz` first and feeds psql `p` |
| BackupOps.RestoreReadsDump | setup_agents.py:185-188 | restoring the compressed artifact of a minute reads that minute's `.sql`; backup naming and restore unpacking round-trip |
| BackupOps.RestoreReadsPlainDump | setup_agents.py:190-196 | restoring an uncompressed artifact runs psql alone, on that file |
| Health.CheckEndpoint | start.py:240-251 | a result exists iff the answer had status 200 and a body that decodes to a non-null value; then it is that value |
| Health.Truthy | start.py:285 | `if health:`: the falsy values are exactly `None`, `False`, `0`, `""`, `[]` and `{}` |
| Health.HealthyMeans | start.py:284-285 | a probe counts as healthy iff it answered 200 with a body that decodes to a truthy value |
| Health.ProbeAt | start.py:284 | the `i`-th request gets the `i`-th recorded answer; requests past the recorded answers find nothing listening |
| Health.WaitFrom | start.py:283-287 | from attempt `i` below the limit, the probe count lies in `(i, max]`, and a success means the last probe was healthy |
| Health.WaitForHealth | start.py:279-292 | returns true iff one of the first `max_attempts` probes is healthy; stops at the first healthy one with one sleep per earlier probe; on failure exactly `max(0, max_attempts)` probes and sleeps; agrees with the reference definition |
| Health.MoreAttemptsNeverHurt | start.py:283 | raising the attempt limit never changes a successful wait |
| Health.UnrecordedProbesFail | start.py:283-288 | attempts beyond the recorded answers never succeed |
| Health.SplitUptime | start.py:228-229 | minutes lie in `[0, 60)`, and hours·3600 + minutes·60 ≤ uptime < that + 60 |
| Health.SplitUptimeUnique | start.py:228-229 | those bounds determine hours and minutes uniquely |
| Health.UptimeSeconds | start.py:225-229 | a missing uptime reads as 0, a numeric one as itself and a bool as 0 or 1; any other value makes the arithmetic raise |
| Health.MemoryUsed | start.py:224 | `memory.used` when the metrics are an object whose `memory` is an object holding `used`; an exception exactly when a `.get` meets a truthy non-object; `N/A` in every other case (no or falsy metrics, `memory` or `used` absent) |
| Health.MonitorIteration | start.py:219-234 | `FAIL` iff the health probe is not healthy; an exception iff it is healthy but the health answer is not an object, the memory lookup raises, or the uptime is not a number; otherwise the memory figure and `SplitUptime` of the uptime (default 0), with minutes in `[0, 60)` |
| Health.MonitorShowsUptime | start.py:222-230 | for a healthy object with numeric uptime `u` and any metrics answer: `u // 3600` hours and `(u % 3600) // 60` minutes beside the memory figure, or an exception when the memory lookup raises |
| Lifecycle.StartDocker | start.py:39-56 | fails without launching anything when there is no compose file; otherwise succeeds iff `docker-compose up -d` does, and probes health only then |
| Lifecycle.TraditionalCommands | start.py:58-86 | the build first iff no build output exists; `which pm2` iff the build step passed; `pm2 start` iff pm2 is installed too, `pm2 save` iff that start succeeded, `pnpm start` iff pm2 is missing; nothing else |
| Lifecycle.StartTraditional | start.py:58-86 | succeeds iff the build (when needed) and, under pm2, both start and save succeed; the commands in order are the build (iff no build output exists), then, once the build step passed, `which pm2` followed by `pm2 start` and `pm2 save` (the save only after a successful start) or by `pnpm start` without pm2; nothing else is launched; health is probed iff successful |
| Lifecycle.StartKubernetes | start.py:88-110 | succeeds iff apply and the readiness wait both succeed; the wait runs only after a successful apply; no health probing |
| Lifecycle.Start | start.py:25-37 | docker, kubernetes and traditional go to their starters; any other method fails with no command |
| Lifecycle.StopDocker | start.py:124-132 | succeeds iff `docker-compose down` does |
| Lifecycle.StopTraditional | start.py:134-144 | always succeeds; launches `which pm2`, then `pm2 stop liam` and `pm2 delete liam` iff pm2 is installed, and nothing else |
| Lifecycle.Stop | start.py:112-122 | only docker and traditional stop; kubernetes and anything else fail with no command |
| Lifecycle.Restart | start.py:146-151 | the result is start's result whatever stop returned; the commands are stop's then start's |
| Lifecycle.StartIgnoresHealth | start.py:51-53 | the health endpoint's answers never change what `start` returns or launches |
| Lifecycle.RestartKubernetes | start.py:146-151 | restarting kubernetes stops nothing but still deploys, and succeeds iff the deployment does |
| Lifecycle.LogsCommand | start.py:185-204 | pm2 wins over docker; pm2 gets `--lines n --nostream` iff not following; docker gets `-f` or `--tail n` and always ends in `app`; nothing without either |
| Lifecycle.LogsLineCount | start.py:194 | the line count in the command reads back as the requested number |

## Left out

- Console output is not modelled: messages, emoji, the float MB size in
  `list_backups`, `Attempt i/n` lines, the monitor timestamp and the
  `{h}h {m}m` text. The model keeps the values that would be printed.
- File and process I/O is not modelled: `open`, `mkdir`, `unlink`, `chmod`
  and pipes are effects on the record list or command list. Real time is an
  input; the two-second pauses of `time.sleep` are not modelled;
  `Health.WaitForHealth` counts how many it takes.
- Floating point is not modelled: `st_mtime`, `time.time()` and JSON numbers
  are integers.
- Missing executables are not modelled. A `FileNotFoundError` from
  `subprocess` is uncaught almost everywhere and would end the script, and
  every tool is assumed present. `stop_traditional` would return `False` if
  the `which` binary itself were missing.
- Per-file unlink errors are not modelled. In the code they abort the sweep.
- `KeyboardInterrupt` handling is not modelled. Neither is the unbounded
  `monitor` loop; one iteration is modelled.
- `status()`, `check_ready`, `debug`, `install_dependencies`,
  `configure_environment`, `run_diagnostics`, `rotate_api_keys` and both
  `main` functions are out of scope. They are printing, argument wiring or
  plumbing around the modelled pieces.
- Text.Lower: lowercases ASCII letters only. This is exact for the `== 'yes'`
  test, because no non-ASCII character lowercases to `y`, `e` or `s`.
- Backups.StampText: always pads the year to four digits. `strftime('%Y')`
  for years below 1000 depends on the platform.
- Paths.Suffix: takes paths in normalised form. There is no trailing `/` and
  no `.` or empty components, and pathlib's own normalisation is not
  modelled.
- Backups.ListBackups: sorts by name. All entries share one directory, so
  comparing the `Path` objects reduces to comparing their names.
- BackupOps.Compressed: a successful gzip replaces any entry of the `.gz`
  name. gzip's refusal to overwrite shows up only as a failed exit.
- Health.MemoryUsed: returns the JSON value rather than its `str()`
  rendering.
- Lifecycle.Restart: the two-second pause does not appear in the result.

=== FILE: backup_ops.dfy ===
/**
 * The decision pipelines of `backup_database`, `_upload_to_s3` and
 * `restore_database` in setup_agents.py. Every effect outside the script
 * (the `.env.local` contents, the clock, the exits of pg_dump, gzip, aws,
 * gunzip and psql, the operator's answer) is an input; the external
 * commands the script launches are part of the result.
 */
module BackupOps {
  import opened Wrappers
  import opened Text
  import opened Paths
  import opened Backups
  import opened Commands
  import EnvFile

  /** The database URL when `_load_env` yields a non-empty `POSTGRES_URL`, as `if not db_url` demands. */
  function UsableUrl(envFile: Option<seq<string>>): (url: Option<string>)
    ensures url.Some? <==> EnvFile.DatabaseUrl(envFile).Some? && EnvFile.DatabaseUrl(envFile).value != ""
    ensures url.Some? ==> url == EnvFile.DatabaseUrl(envFile)
  {
    var u := EnvFile.DatabaseUrl(envFile);
    if u.Some? && u.value != "" then u else None
  }

  // ---------------------------------------------------------------------
  // Directory entries
  // ---------------------------------------------------------------------

  /** The entries without any named `name`. */
  function Without(files: seq<FileRec>, name: string): (r: seq<FileRec>)
    ensures forall f :: f in r <==> f in files && f.name != name
  {
    if |files| == 0 then []
    else
      var rest := Without(files[1..], name);
      assert forall f :: f in files <==> f == files[0] || f in files[1..];
      if files[0].name == name then rest else [files[0]] + rest
  }

  /** Writing `f`: any earlier entry of the same name is replaced. */
  function Put(files: seq<FileRec>, f: FileRec): (r: seq<FileRec>)
    ensures f in r
    ensures forall g :: g in r <==> g == f || (g in files && g.name != f.name)
  {
    Without(files, f.name) + [f]
  }

  /** `mkdir(exist_ok=True)`: the directory exists afterwards, with its entries unchanged. */
  function MakeDir(dir: BackupDir): (r: seq<FileRec>)
    ensures dir.Dir? ==> r == dir.files
    ensures dir.NoDir? ==> r == []
  {
    match dir
    case NoDir => []
    case Dir(files) => files
  }

  // ---------------------------------------------------------------------
  // backup_database
  // ---------------------------------------------------------------------

  /** What the world supplies to one `backup_database` call. */
  datatype BackupWorld = BackupWorld(
    envFile: Option<seq<string>>,  // lines of `.env.local`, `None` when it is absent
    dir: BackupDir,                // the backup directory beforehand
    stamp: Stamp,                  // `datetime.now()`
    dumpedAt: int,                 // modification time the new dump file receives
    sweptAt: int,                  // `time.time()` during the retention sweep
    dumpOk: bool,                  // pg_dump exits with status 0
    gzipOk: bool,                  // gzip exits with status 0
    uploadOk: bool)                // aws exits with status 0

  /** What one `backup_database` call returns and leaves behind. */
  datatype BackupRun = BackupRun(
    ok: bool,                      // the returned value
    files: seq<FileRec>,           // the backup directory afterwards
    commands: seq<Command>,        // external commands launched, in order
    uploaded: Option<string>,      // the path handed to `_upload_to_s3`
    swept: bool,                   // `_cleanup_old_backups` ran
    removed: seq<FileRec>)         // entries the sweep unlinked

  /** Python truthiness of the `s3_bucket` argument. */
  predicate BucketSet(bucket: Option<string>) {
    bucket.Some? && bucket.value != ""
  }

  function DumpCommand(url: string): Command {
    ["pg_dump", url]
  }

  function GzipCommand(path: string): Command {
    ["gzip", path]
  }

  /** The object key `_upload_to_s3` writes to: the bucket, then the file's name. */
  function UploadUri(path: string, bucket: string): (uri: string)
    ensures StartsWith(uri, "s3://")
  {
    "s3://" + bucket + "/" + BaseName(path)
  }

  /** The `aws s3 cp` command `_upload_to_s3` launches. */
  function UploadCommand(path: string, bucket: string): Command {
    ["aws", "s3", "cp", path, UploadUri(path, bucket)]
  }

  /**
   * `_upload_to_s3`: launches the copy and reports nothing back. Its exit
   * status only decides which message is printed, so it is no input here.
   */
  function UploadToS3(path: string, bucket: string): (cmds: seq<Command>)
    ensures |cmds| == 1 && |cmds[0]| == 5
    ensures cmds[0][..3] == ["aws", "s3", "cp"] && cmds[0][3] == path
    ensures cmds[0][4] == "s3://" + bucket + "/" + BaseName(path)
  {
    [UploadCommand(path, bucket)]
  }

  /** The name gzip gives the compressed dump; it always differs from the dump's own name. */
  function Packed(dump: string, compress: bool): (p: string)
    ensures compress <==> p != dump
  {
    if compress then dump + GzipExtension else dump
  }

  /** The directory after a successful dump and, when compressing, a successful gzip that replaces it. */
  function Compressed(files: seq<FileRec>, dump: string, compress: bool, at: int): (r: seq<FileRec>)
    ensures FileRec(Packed(dump, compress), at) in r
    ensures compress ==> forall f :: f in r ==> f.name != dump
    ensures forall f :: f in files && f.name != dump && f.name != Packed(dump, compress) ==> f in r
    ensures forall f :: f in r ==> f == FileRec(Packed(dump, compress), at) || (f in files && f.name != dump && f.name != Packed(dump, compress))
  {
    var withDump := Put(files, FileRec(dump, at));
    if compress then Put(Without(withDump, dump), FileRec(Packed(dump, true), at)) else withDump
  }

  /**
   * The commands `backup_database` launches: pg_dump once a URL is found;
   * gzip only after a successful dump, when compressing; `aws s3 cp` only
   * after the whole backup succeeded, when a bucket is named.
   */
  function BackupCommands(dirPath: string, url: Option<string>, dump: string, compress: bool,
                          bucket: Option<string>, dumpOk: bool, gzipOk: bool): (cs: seq<Command>)
    ensures url.None? <==> cs == []
    ensures url.Some? ==> cs[0] == DumpCommand(url.value)
    ensures url.Some? && dumpOk && compress ==> |cs| > 1 && cs[1] == GzipCommand(Join(dirPath, dump))
    ensures url.Some? && dumpOk && (compress ==> gzipOk) && BucketSet(bucket) ==>
              cs[|cs| - 1] == UploadCommand(Join(dirPath, Packed(dump, compress)), bucket.value)
    ensures !dumpOk ==> |cs| <= 1
    ensures forall c :: c in cs && |c| > 0 && c[0] == "gzip" ==> dumpOk && compress
    ensures forall c :: c in cs && |c| > 0 && c[0] == "aws" ==>
              url.Some? && dumpOk && (compress ==> gzipOk) && BucketSet(bucket)
              && c == UploadCommand(Join(dirPath, Packed(dump, compress)), bucket.value)
  {
    if url.None? then []
    else
      [DumpCommand(url.value)]
      + (if dumpOk && compress then [GzipCommand(Join(dirPath, dump))] else [])
      + (if dumpOk && (compress ==> gzipOk) && BucketSet(bucket)
         then UploadToS3(Join(dirPath, Packed(dump, compress)), bucket.value) else [])
  }

  /**
   * The steps of `backup_database` in order, once the questions put to the
   * world are answered: database URL, dump, compression, upload, sweep.
   */
  function BackupFlow(dirPath: string, files: seq<FileRec>, url: Option<string>, dump: string,
                      compress: bool, bucket: Option<string>, retentionDays: int,
                      dumpedAt: int, sweptAt: int, dumpOk: bool, gzipOk: bool): (r: BackupRun)
    ensures r.ok <==> url.Some? && dumpOk && (compress ==> gzipOk)
    ensures r.commands == BackupCommands(dirPath, url, dump, compress, bucket, dumpOk, gzipOk)
    ensures url.None? ==> r.commands == [] && r.files == files && !r.swept
    ensures url.Some? ==> |r.commands| > 0 && r.commands[0] == DumpCommand(url.value)
    ensures url.Some? && !r.ok ==> FileRec(dump, dumpedAt) in r.files
    ensures url.Some? && !r.ok ==> forall f :: f in r.files <==> f == FileRec(dump, dumpedAt) || (f in files && f.name != dump)
    ensures r.swept <==> r.ok
    ensures !r.ok ==> r.removed == []
    ensures r.uploaded.Some? <==> r.ok && BucketSet(bucket)
    ensures r.uploaded.Some? ==> r.uploaded.value == Join(dirPath, Packed(dump, compress))
                                 && r.commands[|r.commands| - 1] == UploadCommand(r.uploaded.value, bucket.value)
    ensures r.ok && compress ==> |r.commands| > 1 && r.commands[1] == GzipCommand(Join(dirPath, dump))
    ensures r.ok ==> r == BackupRun(true,
                                    CleanupOldBackups(Dir(Compressed(files, dump, compress, dumpedAt)), sweptAt, retentionDays).dir.files,
                                    r.commands, r.uploaded, true,
                                    CleanupOldBackups(Dir(Compressed(files, dump, compress, dumpedAt)), sweptAt, retentionDays).removed)
  {
    var cmds := BackupCommands(dirPath, url, dump, compress, bucket, dumpOk, gzipOk);
    if url.None? then
      BackupRun(false, files, cmds, None, false, [])
    else if !dumpOk || (compress && !gzipOk) then
      BackupRun(false, Put(files, FileRec(dump, dumpedAt)), cmds, None, false, [])
    else
      var path := Join(dirPath, Packed(dump, compress));
      var sweep := CleanupOldBackups(Dir(Compressed(files, dump, compress, dumpedAt)), sweptAt, retentionDays);
      BackupRun(true, sweep.dir.files, cmds, if BucketSet(bucket) then Some(path) else None, true, sweep.removed)
  }

  lemma DumpNameNotPacked(s: Stamp)
    requires s.Valid()
    ensures DumpName(s) != Packed(DumpName(s), true)
    ensures ArtifactName(s, false) == Packed(DumpName(s), false)
    ensures ArtifactName(s, true) == Packed(DumpName(s), true)
  {
    assert |Packed(DumpName(s), true)| == |DumpName(s)| + 3;
  }

  /**
   * `backup_database(compress, s3_bucket, retention_days)` with its backup
   * directory at `dirPath`.
   */
  function BackupDatabase(dirPath: string, compress: bool, bucket: Option<string>, retentionDays: int, w: BackupWorld): (r: BackupRun)
    requires w.stamp.Valid()
    ensures r.ok <==> UsableUrl(w.envFile).Some? && w.dumpOk && (compress ==> w.gzipOk)
    ensures r.swept <==> r.ok
    ensures r.uploaded.Some? <==> r.ok && BucketSet(bucket)
    ensures r.uploaded.Some? ==> r.uploaded.value == Join(dirPath, ArtifactName(w.stamp, compress))
    ensures r.commands == BackupCommands(dirPath, UsableUrl(w.envFile), DumpName(w.stamp), compress, bucket, w.dumpOk, w.gzipOk)
  {
    DumpNameNotPacked(w.stamp);
    BackupFlow(dirPath, MakeDir(w.dir), UsableUrl(w.envFile), DumpName(w.stamp), compress, bucket, retentionDays,
               w.dumpedAt, w.sweptAt, w.dumpOk, w.gzipOk)
  }

  /**
   * The commands and files along the way: without a usable URL nothing is
   * launched and only the directory is created; otherwise pg_dump comes
   * first, gzip (when compressing) second, and a failed dump or gzip leaves
   * the directory as it was, plus the `.sql` file, with nothing swept.
   */
  lemma BackupSteps(dirPath: string, compress: bool, bucket: Option<string>, retentionDays: int, w: BackupWorld)
    requires w.stamp.Valid()
    ensures var r := BackupDatabase(dirPath, compress, bucket, retentionDays, w);
            && (UsableUrl(w.envFile).None? ==> r.commands == [] && r.files == MakeDir(w.dir))
            && (UsableUrl(w.envFile).Some? ==> |r.commands| > 0 && r.commands[0] == DumpCommand(UsableUrl(w.envFile).value))
            && (UsableUrl(w.envFile).Some? && !r.ok ==> FileRec(DumpName(w.stamp), w.dumpedAt) in r.files)
            && (UsableUrl(w.envFile).Some? && !r.ok ==> forall f :: f in r.files <==>
                  f == FileRec(DumpName(w.stamp), w.dumpedAt) || (f in MakeDir(w.dir) && f.name != DumpName(w.stamp)))
            && (r.ok && compress ==> |r.commands| > 1 && r.commands[1] == GzipCommand(Join(dirPath, DumpName(w.stamp))))
            && (r.ok && compress ==> forall f :: f in r.files ==> f.name != DumpName(w.stamp))
  {
    DumpNameNotPacked(w.stamp);
    var r := BackupDatabase(dirPath, compress, bucket, retentionDays, w);
    assert r == BackupFlow(dirPath, MakeDir(w.dir), UsableUrl(w.envFile), DumpName(w.stamp), compress, bucket,
                           retentionDays, w.dumpedAt, w.sweptAt, w.dumpOk, w.gzipOk);
  }

  /**
   * The dump gates everything else: after a failed dump only pg_dump was
   * launched; gzip runs only after a successful dump when compressing; the
   * only upload is the artifact's, and only when the backup succeeded with
   * a bucket named.
   */
  lemma DumpGatesCommands(dirPath: string, compress: bool, bucket: Option<string>, retentionDays: int, w: BackupWorld)
    requires w.stamp.Valid()
    ensures var r := BackupDatabase(dirPath, compress, bucket, retentionDays, w);
            && (!w.dumpOk ==> |r.commands| <= 1)
            && (forall c :: c in r.commands && |c| > 0 && c[0] == "gzip" ==> w.dumpOk && compress)
            && (forall c :: c in r.commands && |c| > 0 && c[0] == "aws" ==>
                  r.ok && BucketSet(bucket) && c == UploadCommand(Join(dirPath, ArtifactName(w.stamp, compress)), bucket.value))
  {
    DumpNameNotPacked(w.stamp);
  }

  /** The upload's exit status never changes what `backup_database` returns or does. */
  lemma UploadFailureSwallowed(dirPath: string, compress: bool, bucket: Option<string>, retentionDays: int, w: BackupWorld)
    requires w.stamp.Valid()
    ensures BackupDatabase(dirPath, compress, bucket, retentionDays, w)
         == BackupDatabase(dirPath, compress, bucket, retentionDays, w.(uploadOk := !w.uploadOk))
  {
  }

  /** The sweep after a successful dump, on generic names. */
  lemma SweptAfterDump(files: seq<FileRec>, dump: string, compress: bool, at: int, sweptAt: int, retentionDays: int)
    requires MatchesPattern(Packed(dump, compress))
    ensures var sw := CleanupOldBackups(Dir(Compressed(files, dump, compress, at)), sweptAt, retentionDays);
            && (FileRec(Packed(dump, compress), at) in sw.dir.files <==> at >= Cutoff(sweptAt, retentionDays))
            && (FileRec(Packed(dump, compress), at) in sw.removed <==> at < Cutoff(sweptAt, retentionDays))
            && (forall f :: f in files && !MatchesPattern(f.name) && f.name != dump ==> f in sw.dir.files)
  {
  }

  /**
   * On success the new artifact outlives the sweep exactly when its
   * modification time is not before the cutoff; with a retention of zero
   * days and a dump older than the sweep it is deleted at once.
   */
  lemma NewArtifactSurvivesIff(dirPath: string, compress: bool, bucket: Option<string>, retentionDays: int, w: BackupWorld)
    requires w.stamp.Valid()
    requires BackupDatabase(dirPath, compress, bucket, retentionDays, w).ok
    ensures FileRec(ArtifactName(w.stamp, compress), w.dumpedAt) in BackupDatabase(dirPath, compress, bucket, retentionDays, w).files
            <==> w.dumpedAt >= Cutoff(w.sweptAt, retentionDays)
    ensures FileRec(ArtifactName(w.stamp, compress), w.dumpedAt) in BackupDatabase(dirPath, compress, bucket, retentionDays, w).removed
            <==> w.dumpedAt < Cutoff(w.sweptAt, retentionDays)
  {
    DumpNameNotPacked(w.stamp);
    ArtifactMatchesPattern(w.stamp, compress);
    SweptAfterDump(MakeDir(w.dir), DumpName(w.stamp), compress, w.dumpedAt, w.sweptAt, retentionDays);
  }

  /** A successful backup never touches an entry that does not match `backup-*.sql*`. */
  lemma OtherFilesUntouched(dirPath: string, compress: bool, bucket: Option<string>, retentionDays: int, w: BackupWorld, f: FileRec)
    requires w.stamp.Valid()
    requires BackupDatabase(dirPath, compress, bucket, retentionDays, w).ok
    requires f in MakeDir(w.dir) && !MatchesPattern(f.name)
    ensures f in BackupDatabase(dirPath, compress, bucket, retentionDays, w).files
  {
    DumpNameNotPacked(w.stamp);
    ArtifactMatchesPattern(w.stamp, false);
    ArtifactMatchesPattern(w.stamp, compress);
    SweptAfterDump(MakeDir(w.dir), DumpName(w.stamp), compress, w.dumpedAt, w.sweptAt, retentionDays);
  }

  /** With a bucket, the object uploaded is named after the artifact, `.gz` included when compressing. */
  lemma UploadedObjectName(dirPath: string, compress: bool, bucket: Option<string>, retentionDays: int, w: BackupWorld)
    requires w.stamp.Valid()
    requires BackupDatabase(dirPath, compress, bucket, retentionDays, w).ok && BucketSet(bucket)
    ensures UploadCommand(Join(dirPath, ArtifactName(w.stamp, compress)), bucket.value)
            in BackupDatabase(dirPath, compress, bucket, retentionDays, w).commands
    ensures UploadUri(Join(dirPath, ArtifactName(w.stamp, compress)), bucket.value)
            == "s3://" + bucket.value + "/" + ArtifactName(w.stamp, compress)
  {
    DumpNameNotPacked(w.stamp);
    ArtifactNameNoSlash(w.stamp, compress);
    BaseNameOfJoin(dirPath, ArtifactName(w.stamp, compress));
  }

  // ---------------------------------------------------------------------
  // restore_database
  // ---------------------------------------------------------------------

  /** What the world supplies to one `restore_database` call. */
  datatype RestoreWorld = RestoreWorld(
    present: bool,                 // `Path(backup_file).exists()`
    answer: string,                // the reply to `Continue? (yes/NO): `
    envFile: Option<seq<string>>,  // lines of `.env.local`, `None` when it is absent
    gunzipOk: bool,                // gunzip exits with status 0
    psqlOk: bool)                  // psql exits with status 0

  /** What one `restore_database` call returns and does. */
  datatype RestoreRun = RestoreRun(
    ok: bool,                      // the returned value
    prompted: bool,                // the operator was asked to confirm
    commands: seq<Command>,        // external commands launched, in order
    readFrom: Option<string>)      // the file fed to psql

  /** `response.lower() == 'yes'`: exactly the three letters, in either case. */
  function Confirmed(answer: string): (yes: bool)
    ensures yes <==> |answer| == 3 && answer[0] in "yY" && answer[1] in "eE" && answer[2] in "sS"
  {
    Lower(answer) == "yes"
  }

  function GunzipCommand(path: string): Command {
    ["gunzip", "-k", path]
  }

  function RestoreCommand(url: string): Command {
    ["psql", url]
  }

  /** The file psql reads: a `.gz` archive is read from its unpacked sibling, anything else as is. */
  function PlainPath(path: string): (plain: string)
    ensures Suffix(path) == ".gz" ==> plain + ".gz" == path
    ensures Suffix(path) != ".gz" ==> plain == path
  {
    if Suffix(path) == ".gz" then WithoutSuffix(path) else path
  }

  /** `backup_path.suffix == '.gz'`. */
  predicate IsGzip(path: string) {
    Suffix(path) == ".gz"
  }

  /**
   * The commands a restore launches: gunzip once when `unpack`, then psql once
   * when `read`, each only with a database URL.
   */
  function RestoreCommands(path: string, url: Option<string>, unpack: bool, read: bool): (cs: seq<Command>)
    ensures |cs| <= 2
    ensures cs != [] ==> url.Some?
    ensures unpack && url.Some? <==> |cs| > 0 && cs[0] == GunzipCommand(path)
    ensures read && url.Some? <==> |cs| > 0 && cs[|cs| - 1] == RestoreCommand(url.value)
  {
    if url.None? then []
    else (if unpack then [GunzipCommand(path)] else []) + (if read then [RestoreCommand(url.value)] else [])
  }

  /**
   * The gates of `restore_database` in order, once the questions put to the
   * world are answered: the file exists, dry run, confirmation, database
   * URL, unpacking (only for `.gz`), psql.
   */
  function RestoreFlow(path: string, plain: string, dryRun: bool, present: bool, confirmed: bool,
                       url: Option<string>, gzipped: bool, gunzipOk: bool, psqlOk: bool): (r: RestoreRun)
    ensures !present ==> r == RestoreRun(false, false, [], None)
    ensures present && dryRun ==> r == RestoreRun(true, false, [], None)
    ensures r.prompted <==> present && !dryRun
    ensures r.ok <==> present && (dryRun || (confirmed && url.Some? && (gzipped ==> gunzipOk) && psqlOk))
    ensures r.commands != [] ==> r.prompted && confirmed && url.Some?
    ensures r.commands != [] && gzipped ==> r.commands[0] == GunzipCommand(path)
    ensures r.readFrom.Some? <==> r.prompted && confirmed && url.Some? && (gzipped ==> gunzipOk)
    ensures r.readFrom.Some? ==> r.readFrom.value == plain && r.commands != []
                                 && r.commands[|r.commands| - 1] == RestoreCommand(url.value)
    ensures |r.commands| <= 2
    ensures r.commands == RestoreCommands(path, url, r.prompted && confirmed && gzipped, r.readFrom.Some?)
    ensures forall c :: c in r.commands ==> c == GunzipCommand(path) || (url.Some? && c == RestoreCommand(url.value))
    ensures GunzipCommand(path) in r.commands <==> r.prompted && confirmed && url.Some? && gzipped
    ensures url.Some? ==> (RestoreCommand(url.value) in r.commands <==> r.readFrom.Some?)
  {
    if !present then RestoreRun(false, false, [], None)
    else if dryRun then RestoreRun(true, false, [], None)
    else if !confirmed then RestoreRun(false, true, [], None)
    else if url.None? then RestoreRun(false, true, [], None)
    else if gzipped && !gunzipOk then RestoreRun(false, true, [GunzipCommand(path)], None)
    else
      var unpack := if gzipped then [GunzipCommand(path)] else [];
      RestoreRun(psqlOk, true, unpack + [RestoreCommand(url.value)], Some(plain))
  }

  /** `restore_database(backup_file, dry_run)`. */
  function RestoreDatabase(path: string, dryRun: bool, w: RestoreWorld): (r: RestoreRun)
    ensures !w.present ==> r == RestoreRun(false, false, [], None)
    ensures w.present && dryRun ==> r == RestoreRun(true, false, [], None)
    ensures r.prompted <==> w.present && !dryRun
    ensures r.prompted && !Confirmed(w.answer) ==> !r.ok && r.commands == []
    ensures r.ok <==> w.present && (dryRun || (Confirmed(w.answer) && UsableUrl(w.envFile).Some?
                                              && (IsGzip(path) ==> w.gunzipOk) && w.psqlOk))
    ensures r.commands != [] ==> r.prompted && Confirmed(w.answer) && UsableUrl(w.envFile).Some?
    ensures r.commands != [] && IsGzip(path) ==> r.commands[0] == GunzipCommand(path)
    ensures r.readFrom.Some? <==> r.prompted && Confirmed(w.answer) && UsableUrl(w.envFile).Some? && (IsGzip(path) ==> w.gunzipOk)
    ensures r.readFrom.Some? ==> r.readFrom.value == PlainPath(path)
    ensures |r.commands| <= 2
    ensures r.commands == RestoreCommands(path, UsableUrl(w.envFile), r.prompted && Confirmed(w.answer) && IsGzip(path), r.readFrom.Some?)
    ensures forall c :: c in r.commands ==>
      c == GunzipCommand(path) || (UsableUrl(w.envFile).Some? && c == RestoreCommand(UsableUrl(w.envFile).value))
    ensures GunzipCommand(path) in r.commands <==> r.prompted && Confirmed(w.answer) && UsableUrl(w.envFile).Some? && IsGzip(path)
    ensures UsableUrl(w.envFile).Some? ==> (RestoreCommand(UsableUrl(w.envFile).value) in r.commands <==> r.readFrom.Some?)
  {
    RestoreFlow(path, PlainPath(path), dryRun, w.present, Confirmed(w.answer), UsableUrl(w.envFile),
                IsGzip(path), w.gunzipOk, w.psqlOk)
  }

  /** Restoring `p.gz` unpacks it and feeds psql `p`. */
  lemma RestoreReadsSibling(p: string, w: RestoreWorld)
    requires BaseName(p) != ""
    requires w.present && Confirmed(w.answer) && UsableUrl(w.envFile).Some? && w.gunzipOk
    ensures RestoreDatabase(p + ".gz", false, w).readFrom == Some(p)
    ensures RestoreDatabase(p + ".gz", false, w).commands[0] == GunzipCommand(p + ".gz")
  {
    GzRoundTrip(p);
  }

  /**
   * Restoring a compressed artifact that `backup_database` wrote unpacks it
   * and feeds psql the `.sql` file of the same minute: the two round-trip.
   */
  lemma RestoreReadsDump(dirPath: string, s: Stamp, w: RestoreWorld)
    requires s.Valid()
    requires w.present && Confirmed(w.answer) && UsableUrl(w.envFile).Some? && w.gunzipOk
    ensures RestoreDatabase(Join(dirPath, ArtifactName(s, true)), false, w).readFrom == Some(Join(dirPath, DumpName(s)))
    ensures RestoreDatabase(Join(dirPath, ArtifactName(s, true)), false, w).commands[0]
            == GunzipCommand(Join(dirPath, ArtifactName(s, true)))
  {
    ArtifactNameNoSlash(s, false);
    RestoreReadsJoinedSibling(dirPath, DumpName(s), w);
  }

  lemma RestoreReadsJoinedSibling(dirPath: string, name: string, w: RestoreWorld)
    requires '/' !in name && name != ""
    requires w.present && Confirmed(w.answer) && UsableUrl(w.envFile).Some? && w.gunzipOk
    ensures RestoreDatabase(Join(dirPath, name + ".gz"), false, w).readFrom == Some(Join(dirPath, name))
    ensures RestoreDatabase(Join(dirPath, name + ".gz"), false, w).commands[0] == GunzipCommand(Join(dirPath, name + ".gz"))
  {
    BaseNameOfJoin(dirPath, name);
    JoinAppend(dirPath, name, ".gz");
    RestoreReadsSibling(Join(dirPath, name), w);
  }

  /** Restoring an uncompressed artifact feeds psql the file itself, with no unpacking. */
  lemma RestoreReadsPlainDump(dirPath: string, s: Stamp, w: RestoreWorld)
    requires s.Valid()
    requires w.present && Confirmed(w.answer) && UsableUrl(w.envFile).Some?
    ensures RestoreDatabase(Join(dirPath, DumpName(s)), false, w).readFrom == Some(Join(dirPath, DumpName(s)))
    ensures RestoreDatabase(Join(dirPath, DumpName(s)), false, w).commands == [RestoreCommand(UsableUrl(w.envFile).value)]
  {
    var p := Join(dirPath, DumpName(s));
    ArtifactNameNoSlash(s, false);
    BaseNameOfJoin(dirPath, DumpName(s));
    var name := DumpName(s);
    assert name[|name| - 4..] == ".sql";
    SqlSuffix(p, name);
  }

  lemma SqlSuffix(p: string, name: string)
    requires BaseName(p) == name && |name| >= 4 && name[|name| - 4..] == ".sql"
    ensures Suffix(p) != ".gz"
  {
  }
}

=== FILE: backups.dfy ===
/**
 * Backup artifacts of setup_agents.py: the timestamped file names that
 * `backup_database` writes, the `backup-*.sql*` pattern that `list_backups`
 * and `_cleanup_old_backups` select with, the retention sweep, and the
 * newest-first listing.
 */
module Backups {
  import opened Text
  import opened Decimal
  import opened Paths

  // ---------------------------------------------------------------------
  // Timestamps and names
  // ---------------------------------------------------------------------

  /** A moment to the minute, as `datetime.now()` supplies it to `strftime`. */
  datatype Stamp = Stamp(year: int, month: int, day: int, hour: int, minute: int) {

    /** The ranges `datetime` guarantees for these fields. */
    predicate Valid() {
      && 1 <= year <= 9999
      && 1 <= month <= 12
      && 1 <= day <= 31
      && 0 <= hour <= 23
      && 0 <= minute <= 59
    }

    /** The fields in the order `%Y-%m-%d-%H-%M` writes them. */
    function Fields(): seq<int> {
      [year, month, day, hour, minute]
    }
  }

  /** Widths of `%Y`, `%m`, `%d`, `%H` and `%M`. */
  const FieldWidths: seq<nat> := [4, 2, 2, 2, 2]

  /** Lexicographic order on equally long number sequences. */
  predicate NumLess(x: seq<int>, y: seq<int>)
    requires |x| == |y|
  {
    |x| > 0 && (x[0] < y[0] || (x[0] == y[0] && NumLess(x[1..], y[1..])))
  }

  /** `a` is an earlier minute than `b`: earlier year, or same year and earlier month, and so on. */
  predicate Before(a: Stamp, b: Stamp) {
    NumLess(a.Fields(), b.Fields())
  }

  /** Every number fits its field width. */
  predicate FitsWidths(ns: seq<int>, ws: seq<nat>) {
    |ns| == |ws| && forall i :: 0 <= i < |ns| ==> 0 <= ns[i] < Pow10(ws[i])
  }

  /** Each number zero-padded to its width. */
  function PadFields(ns: seq<int>, ws: seq<nat>): (fs: seq<string>)
    requires FitsWidths(ns, ws)
    ensures |fs| == |ns|
    ensures forall i :: 0 <= i < |ns| ==> fs[i] == Pad(ns[i], ws[i])
  {
    seq(|ns|, i requires 0 <= i < |ns| => Pad(ns[i], ws[i]))
  }

  /** The fields joined with `-`. */
  function DashJoin(fields: seq<string>): string
    requires |fields| > 0
  {
    if |fields| == 1 then fields[0] else fields[0] + "-" + DashJoin(fields[1..])
  }

  lemma ValidFits(s: Stamp)
    requires s.Valid()
    ensures FitsWidths(s.Fields(), FieldWidths)
  {
    assert Pow10(2) == 100;
    assert Pow10(4) == 10000;
  }

  /**
   * `strftime('%Y-%m-%d-%H-%M')`: sixteen characters, dashes at the four
   * separator positions, and each field's digits reading back as that field.
   */
  function StampText(s: Stamp): (t: string)
    requires s.Valid()
    ensures |t| == 16 && t[4] == '-' && t[7] == '-' && t[10] == '-' && t[13] == '-'
    ensures AllDigits(t[..4]) && DigitsValue(t[..4]) == s.year
    ensures AllDigits(t[5..7]) && DigitsValue(t[5..7]) == s.month
    ensures AllDigits(t[8..10]) && DigitsValue(t[8..10]) == s.day
    ensures AllDigits(t[11..13]) && DigitsValue(t[11..13]) == s.hour
    ensures AllDigits(t[14..]) && DigitsValue(t[14..]) == s.minute
  {
    ValidFits(s);
    var fs := PadFields(s.Fields(), FieldWidths);
    PadRoundTrip(s.year, 4);
    PadRoundTrip(s.month, 2);
    PadRoundTrip(s.day, 2);
    PadRoundTrip(s.hour, 2);
    PadRoundTrip(s.minute, 2);
    StampLayout(fs);
    DashJoin(fs)
  }

  /** Where five fields of widths 4, 2, 2, 2, 2 sit once joined with `-`. */
  lemma StampLayout(fs: seq<string>)
    requires |fs| == 5 && |fs[0]| == 4 && |fs[1]| == 2 && |fs[2]| == 2 && |fs[3]| == 2 && |fs[4]| == 2
    ensures var t := DashJoin(fs);
            && |t| == 16 && t[4] == '-' && t[7] == '-' && t[10] == '-' && t[13] == '-'
            && t[..4] == fs[0] && t[5..7] == fs[1] && t[8..10] == fs[2] && t[11..13] == fs[3] && t[14..] == fs[4]
  {
    var t := DashJoin(fs);
    assert DashJoin(fs[4..]) == fs[4];
    assert DashJoin(fs[3..]) == fs[3] + "-" + fs[4] by { assert fs[3..][1..] == fs[4..]; }
    assert DashJoin(fs[2..]) == fs[2] + "-" + (fs[3] + "-" + fs[4]) by { assert fs[2..][1..] == fs[3..]; }
    assert DashJoin(fs[1..]) == fs[1] + "-" + (fs[2] + "-" + (fs[3] + "-" + fs[4])) by { assert fs[1..][1..] == fs[2..]; }
    assert t == fs[0] + "-" + (fs[1] + "-" + (fs[2] + "-" + (fs[3] + "-" + fs[4])));
  }

  const Prefix := "backup-"
  const DumpExtension := ".sql"
  const GzipExtension := ".gz"

  /** The file `backup_database` dumps into: `backup-<timestamp>.sql`. */
  function DumpName(s: Stamp): (n: string)
    requires s.Valid()
    ensures |n| == |Prefix| + 16 + |DumpExtension|
    ensures n[..|Prefix|] == Prefix && n[|Prefix|..|Prefix| + 16] == StampText(s) && n[|Prefix| + 16..] == DumpExtension
  {
    Prefix + StampText(s) + DumpExtension
  }

  /** The artifact `backup_database` leaves: the dump name, with `.gz` appended when compressing. */
  function ArtifactName(s: Stamp, compressed: bool): (n: string)
    requires s.Valid()
    ensures |DumpName(s)| <= |n| && n[..|DumpName(s)|] == DumpName(s)
    ensures compressed <==> |n| > |DumpName(s)|
    ensures compressed ==> n[|DumpName(s)|..] == GzipExtension
  {
    if compressed then DumpName(s) + GzipExtension else DumpName(s)
  }

  /**
   * `fnmatch` of the pattern `backup-*.sql*`: the name starts with `backup-`
   * and `.sql` occurs somewhere at or after the end of that prefix.
   */
  function MatchesPattern(name: string): (m: bool)
    ensures m <==> StartsWith(name, Prefix) && exists i :: |Prefix| <= i && OccursAt(name, DumpExtension, i)
  {
    if StartsWith(name, Prefix) then
      ContainsAfter(name, |Prefix|, DumpExtension);
      Contains(name[|Prefix|..], DumpExtension)
    else false
  }

  /** An occurrence in the tail from `k` is an occurrence in the whole at or after `k`. */
  lemma ContainsAfter(s: string, k: nat, p: string)
    requires k <= |s|
    ensures Contains(s[k..], p) <==> exists i :: k <= i && OccursAt(s, p, i)
  {
    if Contains(s[k..], p) {
      var j :| 0 <= j <= |s[k..]| - |p| && OccursAt(s[k..], p, j);
      assert s[k..][j..j + |p|] == s[k + j..k + j + |p|];
      assert OccursAt(s, p, k + j);
    }
    if i :| k <= i && OccursAt(s, p, i) {
      assert s[k..][i - k..i - k + |p|] == s[i..i + |p|];
      assert OccursAt(s[k..], p, i - k);
    }
  }

  // --- lemmas about names ---

  lemma PadFieldsTail(ns: seq<int>, ws: seq<nat>)
    requires FitsWidths(ns, ws) && |ns| > 1
    ensures FitsWidths(ns[1..], ws[1..])
    ensures PadFields(ns, ws)[1..] == PadFields(ns[1..], ws[1..])
  {
    assert forall i :: 0 <= i < |ns| - 1 ==> ns[1..][i] == ns[i + 1] && ws[1..][i] == ws[i + 1];
  }

  /** The joined text has the same length for all numbers of the same widths. */
  lemma {:induction false} DashJoinLength(ns: seq<int>, ms: seq<int>, ws: seq<nat>)
    requires FitsWidths(ns, ws) && FitsWidths(ms, ws) && |ws| > 0
    ensures |DashJoin(PadFields(ns, ws))| == |DashJoin(PadFields(ms, ws))|
  {
    if |ws| > 1 {
      PadFieldsTail(ns, ws);
      PadFieldsTail(ms, ws);
      DashJoinLength(ns[1..], ms[1..], ws[1..]);
    }
  }

  /** A field followed by `-` compares like the field. */
  lemma DashedFieldOrder(f: string, g: string)
    requires |f| == |g|
    ensures LexLess(f + "-", g + "-") <==> LexLess(f, g)
    ensures f + "-" == g + "-" <==> f == g
  {
    LexLessConcat(f, "-", g, "-");
    LexLessIrreflexive("-");
    if f + "-" == g + "-" {
      assert f == (f + "-")[..|f|] && g == (g + "-")[..|g|];
    }
  }

  /**
   * Joined zero-padded fields compare as text exactly as their numbers
   * compare lexicographically.
   */
  lemma {:induction false} DashJoinOrder(ns: seq<int>, ms: seq<int>, ws: seq<nat>)
    requires FitsWidths(ns, ws) && FitsWidths(ms, ws) && |ws| > 0
    ensures LexLess(DashJoin(PadFields(ns, ws)), DashJoin(PadFields(ms, ws))) <==> NumLess(ns, ms)
  {
    var f, g := Pad(ns[0], ws[0]), Pad(ms[0], ws[0]);
    PadOrder(ns[0], ms[0], ws[0]);
    PadInjective(ns[0], ms[0], ws[0]);
    if |ws| == 1 {
      assert NumLess(ns, ms) <==> ns[0] < ms[0];
    } else {
      PadFieldsTail(ns, ws);
      PadFieldsTail(ms, ws);
      var restN, restM := DashJoin(PadFields(ns[1..], ws[1..])), DashJoin(PadFields(ms[1..], ws[1..]));
      assert DashJoin(PadFields(ns, ws)) == (f + "-") + restN;
      assert DashJoin(PadFields(ms, ws)) == (g + "-") + restM;
      DashedFieldOrder(f, g);
      LexLessConcat(f + "-", restN, g + "-", restM);
      DashJoinOrder(ns[1..], ms[1..], ws[1..]);
    }
  }

  lemma StampTextOrder(a: Stamp, b: Stamp)
    requires a.Valid() && b.Valid()
    ensures LexLess(StampText(a), StampText(b)) <==> Before(a, b)
    ensures |StampText(a)| == |StampText(b)|
  {
    ValidFits(a);
    ValidFits(b);
    DashJoinOrder(a.Fields(), b.Fields(), FieldWidths);
    DashJoinLength(a.Fields(), b.Fields(), FieldWidths);
  }

  /**
   * Names of artifacts from different minutes sort by their minutes,
   * whether or not either was compressed; a compressed and an uncompressed
   * artifact of the same minute sort the uncompressed one first.
   */
  lemma ArtifactNameOrder(a: Stamp, ca: bool, b: Stamp, cb: bool)
    requires a.Valid() && b.Valid()
    ensures Before(a, b) ==> LexLess(ArtifactName(a, ca), ArtifactName(b, cb))
    ensures a == b && !ca && cb ==> LexLess(ArtifactName(a, ca), ArtifactName(b, cb))
  {
    StampTextOrder(a, b);
    var ta := StampText(a) + DumpExtension + (if ca then GzipExtension else "");
    var tb := StampText(b) + DumpExtension + (if cb then GzipExtension else "");
    assert ArtifactName(a, ca) == Prefix + ta;
    assert ArtifactName(b, cb) == Prefix + tb;
    LexLessConcat(Prefix, ta, Prefix, tb);
    LexLessIrreflexive(Prefix);
    assert ta == StampText(a) + (DumpExtension + (if ca then GzipExtension else ""));
    assert tb == StampText(b) + (DumpExtension + (if cb then GzipExtension else ""));
    LexLessConcat(StampText(a), DumpExtension + (if ca then GzipExtension else ""),
                  StampText(b), DumpExtension + (if cb then GzipExtension else ""));
    if a == b && !ca && cb {
      LexLessConcat(DumpExtension, "", DumpExtension, GzipExtension);
      LexLessIrreflexive(DumpExtension);
      assert DumpExtension + "" == DumpExtension;
    }
  }

  /** Every artifact `backup_database` writes is picked up by the `backup-*.sql*` pattern. */
  lemma ArtifactMatchesPattern(s: Stamp, compressed: bool)
    requires s.Valid()
    ensures MatchesPattern(ArtifactName(s, compressed))
  {
    var name := ArtifactName(s, compressed);
    var t := StampText(s);
    var rest := name[|Prefix|..];
    assert name == Prefix + (t + DumpExtension + (if compressed then GzipExtension else ""));
    assert rest == t + DumpExtension + (if compressed then GzipExtension else "");
    assert rest[|t|..|t| + 4] == DumpExtension;
    assert OccursAt(rest, DumpExtension, |t|);
  }

  /** Timestamp text holds digits and dashes only, so artifact names never contain `/`. */
  lemma {:induction false} DashJoinNoSlash(fs: seq<string>)
    requires |fs| > 0 && forall i :: 0 <= i < |fs| ==> AllDigits(fs[i])
    ensures '/' !in DashJoin(fs)
  {
    if |fs| == 1 {
      assert forall j :: 0 <= j < |fs[0]| ==> fs[0][j] != '/';
    } else {
      assert forall i :: 0 <= i < |fs| - 1 ==> fs[1..][i] == fs[i + 1];
      DashJoinNoSlash(fs[1..]);
      var r := DashJoin(fs[1..]);
      assert forall j :: 0 <= j < |fs[0]| ==> fs[0][j] != '/';
      assert forall c :: c in fs[0] + "-" + r ==> c in fs[0] || c == '-' || c in r;
    }
  }

  lemma ArtifactNameNoSlash(s: Stamp, compressed: bool)
    requires s.Valid()
    ensures '/' !in ArtifactName(s, compressed)
    ensures |ArtifactName(s, compressed)| > 0
  {
    ValidFits(s);
    DashJoinNoSlash(PadFields(s.Fields(), FieldWidths));
    var t := StampText(s);
    var name := ArtifactName(s, compressed);
    assert forall c :: c in name ==> c in Prefix || c in t || c in DumpExtension || c in GzipExtension;
  }

  // ---------------------------------------------------------------------
  // The backup directory and the retention sweep
  // ---------------------------------------------------------------------

  /** A directory entry: its name and its modification time in whole seconds. */
  datatype FileRec = FileRec(name: string, mtime: int)

  /** The backup directory: missing, or present with its entries. */
  datatype BackupDir = NoDir | Dir(files: seq<FileRec>)

  const SecondsPerDay := 24 * 60 * 60

  /** `time.time() - retention_days * 24 * 60 * 60`. */
  function Cutoff(now: int, retentionDays: int): (c: int)
    ensures c == now - retentionDays * 24 * 60 * 60
    ensures c <= now <==> retentionDays >= 0
  {
    now - retentionDays * SecondsPerDay
  }

  /** An entry the sweep deletes: it matches the pattern and is older than the cutoff. */
  predicate Expired(f: FileRec, cutoff: int) {
    MatchesPattern(f.name) && f.mtime < cutoff
  }

  /** The entries the sweep keeps, in directory order. */
  function KeptFiles(files: seq<FileRec>, cutoff: int): (kept: seq<FileRec>)
    ensures forall f :: f in kept <==> f in files && !Expired(f, cutoff)
    ensures |kept| <= |files|
  {
    if |files| == 0 then []
    else
      var rest := KeptFiles(files[1..], cutoff);
      assert forall f :: f in files <==> f == files[0] || f in files[1..];
      if Expired(files[0], cutoff) then rest else [files[0]] + rest
  }

  /** The entries the sweep deletes, in directory order. */
  function ExpiredFiles(files: seq<FileRec>, cutoff: int): (gone: seq<FileRec>)
    ensures forall f :: f in gone <==> f in files && Expired(f, cutoff)
  {
    if |files| == 0 then []
    else
      var rest := ExpiredFiles(files[1..], cutoff);
      assert forall f :: f in files <==> f == files[0] || f in files[1..];
      if Expired(files[0], cutoff) then [files[0]] + rest else rest
  }

  /** What `_cleanup_old_backups` leaves behind, and which entries it removed. */
  datatype Sweep = Sweep(dir: BackupDir, removed: seq<FileRec>)

  /**
   * `_cleanup_old_backups(retention_days)` at time `now`: a missing directory
   * is left alone; otherwise exactly the expired entries are unlinked.
   */
  function CleanupOldBackups(dir: BackupDir, now: int, retentionDays: int): (r: Sweep)
    ensures dir.NoDir? ==> r == Sweep(NoDir, [])
    ensures dir.Dir? ==> r.dir.Dir?
    ensures dir.Dir? ==> forall f :: f in r.dir.files <==> f in dir.files && !Expired(f, Cutoff(now, retentionDays))
    ensures dir.Dir? ==> forall f :: f in r.removed <==> f in dir.files && Expired(f, Cutoff(now, retentionDays))
  {
    match dir
    case NoDir => Sweep(NoDir, [])
    case Dir(files) =>
      var cutoff := Cutoff(now, retentionDays);
      Sweep(Dir(KeptFiles(files, cutoff)), ExpiredFiles(files, cutoff))
  }

  /** Every entry is either kept or removed, never both and never lost. */
  lemma {:induction false} SweepPartition(files: seq<FileRec>, cutoff: int)
    ensures multiset(KeptFiles(files, cutoff)) + multiset(ExpiredFiles(files, cutoff)) == multiset(files)
  {
    if |files| > 0 {
      SweepPartition(files[1..], cutoff);
      assert files == [files[0]] + files[1..];
    }
  }

  /** Sweeping with a cutoff and then with a later one is the same as sweeping once with the later one. */
  lemma {:induction false} SweepLaterCutoff(files: seq<FileRec>, cutoff: int, later: int)
    requires cutoff <= later
    ensures KeptFiles(KeptFiles(files, cutoff), later) == KeptFiles(files, later)
  {
    if |files| > 0 {
      SweepLaterCutoff(files[1..], cutoff, later);
    }
  }

  /** Nothing the sweep keeps is expired at the same cutoff. */
  lemma {:induction false} NothingLeftToRemove(files: seq<FileRec>, cutoff: int)
    ensures ExpiredFiles(KeptFiles(files, cutoff), cutoff) == []
  {
    if |files| > 0 {
      NothingLeftToRemove(files[1..], cutoff);
    }
  }

  /** A second sweep at the same time with the same retention deletes nothing more. */
  lemma CleanupIdempotent(dir: BackupDir, now: int, retentionDays: int)
    ensures CleanupOldBackups(CleanupOldBackups(dir, now, retentionDays).dir, now, retentionDays)
            == Sweep(CleanupOldBackups(dir, now, retentionDays).dir, [])
  {
    if dir.Dir? {
      var c := Cutoff(now, retentionDays);
      SweepLaterCutoff(dir.files, c, c);
      NothingLeftToRemove(dir.files, c);
    }
  }

  // ---------------------------------------------------------------------
  // Listing
  // ---------------------------------------------------------------------

  /** How many entries of `files` are named `n`. */
  function EntriesNamed(files: seq<FileRec>, n: string): nat {
    if |files| == 0 then 0
    else (if files[0].name == n then 1 else 0) + EntriesNamed(files[1..], n)
  }

  /**
   * Names of the entries matching `backup-*.sql*`, in directory order: each
   * matching name once per entry carrying it, and no other name.
   */
  function PatternNames(files: seq<FileRec>): (names: seq<string>)
    ensures |names| <= |files|
    ensures forall i :: 0 <= i < |names| ==> MatchesPattern(names[i])
    ensures forall f :: f in files && MatchesPattern(f.name) ==> f.name in names
    ensures forall n :: n in names ==> exists f :: f in files && f.name == n && MatchesPattern(n)
    ensures forall n :: multiset(names)[n] == if MatchesPattern(n) then EntriesNamed(files, n) else 0
  {
    if |files| == 0 then []
    else
      var rest := PatternNames(files[1..]);
      assert forall f :: f in files <==> f == files[0] || f in files[1..];
      if MatchesPattern(files[0].name) then
        assert multiset([files[0].name] + rest) == multiset{files[0].name} + multiset(rest);
        [files[0].name] + rest
      else rest
  }

  /** Each element is at least as large as every later one (Python's `sorted(..., reverse=True)`). */
  predicate SortedDescending(s: seq<string>) {
    forall i, j :: 0 <= i < j < |s| ==> LexLessEq(s[j], s[i])
  }

  lemma LexLessEqTransitive(a: string, b: string, c: string)
    requires LexLessEq(a, b) && LexLessEq(b, c)
    ensures LexLessEq(a, c)
  {
    if a != b && b != c {
      LexLessTransitive(a, b, c);
    }
  }

  function InsertDescending(x: string, s: seq<string>): (r: seq<string>)
    requires SortedDescending(s)
    ensures SortedDescending(r)
    ensures multiset(r) == multiset(s) + multiset{x}
  {
    if |s| == 0 then [x]
    else if LexLessEq(s[0], x) then
      InsertAtFront(x, s);
      [x] + s
    else
      var t := InsertDescending(x, s[1..]);
      InsertBehind(x, s, t);
      assert s == [s[0]] + s[1..];
      [s[0]] + t
  }

  lemma InsertAtFront(x: string, s: seq<string>)
    requires SortedDescending(s) && |s| > 0 && LexLessEq(s[0], x)
    ensures SortedDescending([x] + s)
  {
    var r := [x] + s;
    forall i, j | 0 <= i < j < |r|
      ensures LexLessEq(r[j], r[i])
    {
      if i == 0 {
        assert r[j] == s[j - 1];
        if j > 1 {
          LexLessEqTransitive(s[j - 1], s[0], x);
        }
      } else {
        assert r[i] == s[i - 1] && r[j] == s[j - 1];
      }
    }
  }

  lemma InsertBehind(x: string, s: seq<string>, t: seq<string>)
    requires SortedDescending(s) && |s| > 0 && !LexLessEq(s[0], x)
    requires SortedDescending(t) && multiset(t) == multiset(s[1..]) + multiset{x}
    ensures SortedDescending([s[0]] + t)
  {
    LexLessTotal(s[0], x);
    var r := [s[0]] + t;
    forall i, j | 0 <= i < j < |r|
      ensures LexLessEq(r[j], r[i])
    {
      if i == 0 {
        var e := t[j - 1];
        assert e in multiset(t);
        if e != x {
          assert e in multiset(s[1..]);
          var k :| 0 <= k < |s[1..]| && s[1..][k] == e;
          assert s[k + 1] == e;
        }
      } else {
        assert r[i] == t[i - 1] && r[j] == t[j - 1];
      }
    }
  }

  function SortDescending(s: seq<string>): (r: seq<string>)
    ensures SortedDescending(r)
    ensures multiset(r) == multiset(s)
  {
    if |s| == 0 then []
    else
      assert s == [s[0]] + s[1..];
      InsertDescending(s[0], SortDescending(s[1..]))
  }

  /**
   * `list_backups`: nothing for a missing directory; otherwise the names
   * matching `backup-*.sql*`, largest name first.
   */
  function ListBackups(dir: BackupDir): (names: seq<string>)
    ensures dir.NoDir? ==> names == []
    ensures SortedDescending(names)
    ensures dir.Dir? ==> multiset(names) == multiset(PatternNames(dir.files))
  {
    match dir
    case NoDir => []
    case Dir(files) => SortDescending(PatternNames(files))
  }

  /**
   * The listing shows newer backups first: when two listed names are
   * artifacts of different minutes, the earlier position holds the later
   * minute.
   */
  lemma ListNewestFirst(dir: BackupDir, i: int, j: int, a: Stamp, ca: bool, b: Stamp, cb: bool)
    requires 0 <= i < j < |ListBackups(dir)|
    requires a.Valid() && b.Valid()
    requires ListBackups(dir)[i] == ArtifactName(a, ca) && ListBackups(dir)[j] == ArtifactName(b, cb)
    ensures !Before(a, b)
  {
    var names := ListBackups(dir);
    assert LexLessEq(names[j], names[i]);
    if Before(a, b) {
      ArtifactNameOrder(a, ca, b, cb);
      LexLessAsymmetric(names[i], names[j]);
      LexLessIrreflexive(names[i]);
    }
  }
}

=== FILE: commands.dfy ===
/** External programs the scripts launch. */
module Commands {

  /** A command line: the program, then its arguments. */
  type Command = seq<string>
}

=== FILE: decimal.dfy ===
/**
 * Decimal text of integers: Python's `str(n)` (used for the `--lines` and
 * `--tail` arguments of the log commands) and the zero-padded fields that
 * `strftime` writes into backup names.
 */
module Decimal {
  import opened Wrappers
  import opened Text

  predicate IsDigit(c: char) {
    '0' <= c <= '9'
  }

  predicate AllDigits(s: string) {
    forall i :: 0 <= i < |s| ==> IsDigit(s[i])
  }

  function DigitChar(d: nat): (c: char)
    requires d < 10
    ensures IsDigit(c)
  {
    ('0' as int + d) as char
  }

  function DigitValue(c: char): (d: nat)
    requires IsDigit(c)
    ensures d < 10 && DigitChar(d) == c
  {
    c as int - '0' as int
  }

  function Pow10(w: nat): (p: nat)
    ensures p >= 1
  {
    if w == 0 then 1 else 10 * Pow10(w - 1)
  }

  /** The number a string of decimal digits denotes (leading zeros allowed). */
  function DigitsValue(s: string): nat
    requires AllDigits(s)
  {
    if |s| == 0 then 0
    else DigitsValue(s[..|s| - 1]) * 10 + DigitValue(s[|s| - 1])
  }

  /** Python's `str(n)` for a natural number: no leading zero except for "0" itself. */
  function NatToString(n: nat): (s: string)
    ensures |s| >= 1 && AllDigits(s)
    ensures |s| > 1 ==> s[0] != '0'
    ensures DigitsValue(s) == n
  {
    if n < 10 then [DigitChar(n)]
    else
      var prefix := NatToString(n / 10);
      var s := prefix + [DigitChar(n % 10)];
      assert s[..|s| - 1] == prefix;
      s
  }

  /** Python's `str(n)` for any integer. */
  function IntToString(n: int): (s: string)
    ensures |s| >= 1
    ensures n < 0 <==> s[0] == '-'
    ensures n >= 0 ==> AllDigits(s) && DigitsValue(s) == n && (|s| > 1 ==> s[0] != '0')
    ensures n < 0 ==> |s| >= 2 && AllDigits(s[1..]) && DigitsValue(s[1..]) == -n && (|s| > 2 ==> s[1] != '0')
  {
    if n < 0 then "-" + NatToString(-n) else NatToString(n)
  }

  /** Python's `int(s)` restricted to an optional '-' followed by decimal digits. */
  function ParseInt(s: string): Option<int> {
    if |s| > 1 && s[0] == '-' && AllDigits(s[1..]) then Some(0 - DigitsValue(s[1..]) as int)
    else if |s| > 0 && AllDigits(s) then Some(DigitsValue(s))
    else None
  }

  /** Reading back the text `str(n)` gives `n` again. */
  lemma IntToStringRoundTrip(n: int)
    ensures ParseInt(IntToString(n)) == Some(n)
  {
    var s := IntToString(n);
    if n < 0 {
      assert s[1..] == NatToString(-n);
    } else {
      assert !IsDigit('-');
      assert s[0] != '-';
    }
  }

  /** `n` written with exactly `w` digits, zero-filled on the left (`%02d`, `%04d`). */
  function Pad(n: nat, w: nat): (s: string)
    requires n < Pow10(w)
    ensures |s| == w && AllDigits(s)
  {
    if w == 0 then ""
    else Pad(n / 10, w - 1) + [DigitChar(n % 10)]
  }

  /** A padded field reads back as the number it was made from. */
  lemma {:induction false} PadRoundTrip(n: nat, w: nat)
    requires n < Pow10(w)
    ensures DigitsValue(Pad(n, w)) == n
  {
    if w > 0 {
      var s := Pad(n, w);
      assert s[..|s| - 1] == Pad(n / 10, w - 1);
      PadRoundTrip(n / 10, w - 1);
    }
  }

  /** Equal-width zero-padded numbers compare as strings exactly as they compare as numbers. */
  lemma {:induction false} PadOrder(n: nat, m: nat, w: nat)
    requires n < Pow10(w) && m < Pow10(w)
    ensures LexLess(Pad(n, w), Pad(m, w)) <==> n < m
  {
    if w == 0 {
    } else {
      var hn, hm := Pad(n / 10, w - 1), Pad(m / 10, w - 1);
      var dn, dm := DigitChar(n % 10), DigitChar(m % 10);
      LexLessConcat(hn, [dn], hm, [dm]);
      PadOrder(n / 10, m / 10, w - 1);
      PadInjective(n / 10, m / 10, w - 1);
      assert LexLess([dn], [dm]) <==> n % 10 < m % 10;
    }
  }

  lemma PadInjective(n: nat, m: nat, w: nat)
    requires n < Pow10(w) && m < Pow10(w)
    ensures Pad(n, w) == Pad(m, w) <==> n == m
  {
    PadRoundTrip(n, w);
    PadRoundTrip(m, w);
  }
}

=== FILE: env_file.dfy ===
/**
 * The `.env.local` reader of setup_agents.py: a line-oriented `KEY=VALUE`
 * format read into a dictionary, and the required-variable check of
 * `validate_environment`. The file arrives as its sequence of lines.
 *
 * Two parsers exist in the source. `_load_env` strips the key and the value
 * around the first `=`; `validate_environment` keeps them as they are. A
 * `StripParts` flag selects between them.
 */
module EnvFile {
  import opened Wrappers
  import opened Text

  datatype Entry = Entry(key: string, value: string)

  /** Which of the two parsers: `_load_env` strips the parts, `validate_environment` does not. */
  datatype Variant = StripParts | KeepParts

  /** A stripped line that yields an entry: non-empty, not a `#` comment, and holding an `=`. */
  predicate IsAssignment(stripped: string) {
    |stripped| > 0 && stripped[0] != '#' && '=' in stripped
  }

  /**
   * `line.split('=', 1)` on the stripped line, as `validate_environment` does it:
   * the key is everything before the first `=`, the value everything after.
   */
  function SplitAssignment(line: string): (r: Option<Entry>)
    ensures r.None? <==> !IsAssignment(Strip(line))
    ensures r.Some? ==> '=' !in r.value.key && r.value.key + "=" + r.value.value == Strip(line)
  {
    var s := Strip(line);
    if IsAssignment(s) then
      var i := IndexOf(s, '=');
      SplitAround(s, i);
      Some(Entry(s[..i], s[i + 1..]))
    else None
  }

  lemma SplitAround(s: string, i: int)
    requires 0 <= i < |s| && s[i] == '='
    ensures s == s[..i] + "=" + s[i + 1..]
  {
    assert s[..i] + "=" + s[i + 1..] == s[..i] + s[i..];
  }

  /** One line through the chosen parser. */
  function ParseLine(line: string, variant: Variant): (r: Option<Entry>)
    ensures r.Some? <==> SplitAssignment(line).Some?
    ensures r.Some? && variant == KeepParts ==> r == SplitAssignment(line)
    ensures r.Some? && variant == StripParts ==>
      && r.value.key == Strip(SplitAssignment(line).value.key)
      && r.value.value == Strip(SplitAssignment(line).value.value)
  {
    match SplitAssignment(line)
    case None => None
    case Some(e) =>
      if variant == StripParts then Some(Entry(Strip(e.key), Strip(e.value))) else Some(e)
  }

  /** The per-line results of the chosen parser, in file order. */
  function ParseLines(lines: seq<string>, variant: Variant): (parsed: seq<Option<Entry>>)
    ensures |parsed| == |lines|
    ensures forall i :: 0 <= i < |lines| ==> parsed[i] == ParseLine(lines[i], variant)
  {
    seq(|lines|, i requires 0 <= i < |lines| => ParseLine(lines[i], variant))
  }

  /** Entry `i` of `parsed` assigns `key`. */
  predicate Assigns(parsed: seq<Option<Entry>>, i: int, key: string) {
    0 <= i < |parsed| && parsed[i].Some? && parsed[i].value.key == key
  }

  /** Entry `i` is `e`, and no later entry assigns `e.key` again. */
  predicate LastAssignment(parsed: seq<Option<Entry>>, i: int, e: Entry) {
    && 0 <= i < |parsed|
    && parsed[i] == Some(e)
    && forall j :: i < j < |parsed| ==> !Assigns(parsed, j, e.key)
  }

  /** The keys some entry assigns. */
  function AssignedKeys(parsed: seq<Option<Entry>>): set<string> {
    set i | 0 <= i < |parsed| && parsed[i].Some? :: parsed[i].value.key
  }

  lemma AssignedKeysSnoc(parsed: seq<Option<Entry>>, last: Option<Entry>)
    ensures AssignedKeys(parsed + [last]) == AssignedKeys(parsed) + (if last.Some? then {last.value.key} else {})
  {
    var all := parsed + [last];
    assert forall i :: 0 <= i < |parsed| ==> all[i] == parsed[i];
    assert all[|parsed|] == last;
  }

  /** A last assignment in `parsed + [last]` is `last` itself or a last assignment in `parsed` of another key. */
  lemma LastAssignmentSnoc(parsed: seq<Option<Entry>>, last: Option<Entry>)
    ensures forall i, e :: LastAssignment(parsed + [last], i, e) ==>
      if i == |parsed| then last == Some(e)
      else LastAssignment(parsed, i, e) && !(last.Some? && last.value.key == e.key)
  {
    var all := parsed + [last];
    forall i, e | LastAssignment(all, i, e) && i < |parsed|
      ensures LastAssignment(parsed, i, e) && !(last.Some? && last.value.key == e.key)
    {
      assert all[i] == parsed[i];
      assert !Assigns(all, |parsed|, e.key);
      forall j | i < j < |parsed|
        ensures !Assigns(parsed, j, e.key)
      {
        assert all[j] == parsed[j];
        assert !Assigns(all, j, e.key);
      }
    }
  }

  /**
   * The dictionary built by `env_vars[key] = value` for each entry in turn:
   * its keys are exactly the assigned ones and each key maps to the value of
   * its last assignment.
   */
  function Collect(parsed: seq<Option<Entry>>): (env: map<string, string>)
    ensures env.Keys == AssignedKeys(parsed)
    ensures forall i, e :: LastAssignment(parsed, i, e) ==> e.key in env && env[e.key] == e.value
  {
    if |parsed| == 0 then map[]
    else
      var prefix := parsed[..|parsed| - 1];
      var last := parsed[|parsed| - 1];
      assert parsed == prefix + [last];
      AssignedKeysSnoc(prefix, last);
      LastAssignmentSnoc(prefix, last);
      var before := Collect(prefix);
      match last
      case None => before
      case Some(e) => before[e.key := e.value]
  }

  /** A last assignment of `parsed` stays last when an entry for another key follows. */
  lemma LastAssignmentExtend(parsed: seq<Option<Entry>>, last: Option<Entry>, i: int, e: Entry)
    requires LastAssignment(parsed, i, e) && !(last.Some? && last.value.key == e.key)
    ensures LastAssignment(parsed + [last], i, e)
  {
    var all := parsed + [last];
    assert all[i] == parsed[i];
    forall j | i < j < |all|
      ensures !Assigns(all, j, e.key)
    {
      if j < |parsed| {
        assert all[j] == parsed[j];
        assert !Assigns(parsed, j, e.key);
      }
    }
  }

  /** `v` is the value of the last entry of `parsed` that assigns `key`. */
  predicate LastValue(parsed: seq<Option<Entry>>, key: string, v: string) {
    exists i :: 0 <= i < |parsed| && LastAssignment(parsed, i, Entry(key, v))
  }

  /** Every key of the dictionary holds the value of that key's last assignment. */
  lemma {:induction false} CollectFromLastAssignment(parsed: seq<Option<Entry>>, k: string)
    requires k in Collect(parsed)
    ensures LastValue(parsed, k, Collect(parsed)[k])
  {
    var prefix := parsed[..|parsed| - 1];
    var last := parsed[|parsed| - 1];
    assert parsed == prefix + [last];
    if last.Some? && last.value.key == k {
      assert Collect(parsed)[k] == last.value.value;
      assert LastAssignment(parsed, |parsed| - 1, Entry(k, Collect(parsed)[k]));
    } else {
      assert Collect(parsed)[k] == Collect(prefix)[k];
      CollectFromLastAssignment(prefix, k);
      var i :| LastAssignment(prefix, i, Entry(k, Collect(prefix)[k]));
      LastAssignmentExtend(prefix, last, i, Entry(k, Collect(prefix)[k]));
    }
  }

  /** The dictionary a parser builds from the lines of an env file. */
  function Load(lines: seq<string>, variant: Variant): map<string, string> {
    Collect(ParseLines(lines, variant))
  }

  /** The variables `validate_environment` insists on, in its order. */
  const Required: seq<string> := ["OPENAI_API_KEY", "POSTGRES_URL", "NEXT_PUBLIC_BASE_URL"]

  /** Present with a non-empty value (Python's `var in env_vars and env_vars[var]`). */
  predicate IsSet(env: map<string, string>, key: string) {
    key in env && env[key] != ""
  }

  /** `a` can be obtained from `b` by deleting elements, so it keeps `b`'s order. */
  predicate Subsequence<T(==)>(a: seq<T>, b: seq<T>) {
    if |a| == 0 then true
    else if |b| == 0 then false
    else (a[0] == b[0] && Subsequence(a[1..], b[1..])) || Subsequence(a, b[1..])
  }

  /** The keys of `keys` that are not set in `env`, in the order of `keys`. */
  function MissingKeys(env: map<string, string>, keys: seq<string>): (missing: seq<string>)
    ensures forall k :: k in missing <==> k in keys && !IsSet(env, k)
    ensures Subsequence(missing, keys)
  {
    if |keys| == 0 then []
    else if IsSet(env, keys[0]) then MissingKeys(env, keys[1..])
    else [keys[0]] + MissingKeys(env, keys[1..])
  }

  datatype Validation =
    | NoEnvFile                               // `.env.local` does not exist
    | MissingVariables(names: seq<string>)    // reported in `Required` order
    | Valid
  {
    /** What `validate_environment` returns. */
    predicate Passed() {
      Valid?
    }
  }

  /** The outcome of checking `keys` against an already loaded dictionary. */
  function CheckKeys(env: map<string, string>, keys: seq<string>): (v: Validation)
    ensures v.Passed() <==> forall k :: k in keys ==> IsSet(env, k)
    ensures !v.NoEnvFile?
    ensures v.MissingVariables? ==>
      && |v.names| > 0
      && Subsequence(v.names, keys)
      && forall k :: k in v.names <==> k in keys && !IsSet(env, k)
  {
    var missing := MissingKeys(env, keys);
    if |missing| > 0 then
      assert missing[0] in missing;
      MissingVariables(missing)
    else
      assert forall k :: k in keys ==> IsSet(env, k) by {
        forall k | k in keys
          ensures IsSet(env, k)
        {
          assert k !in missing;
        }
      }
      Valid
  }

  /**
   * `validate_environment`, given the file's lines or `None` when the file is
   * absent. It reads with the non-stripping parser.
   */
  function ValidateEnvironment(file: Option<seq<string>>): (v: Validation)
    ensures v.NoEnvFile? <==> file.None?
    ensures file.Some? ==> v == CheckKeys(Load(file.value, KeepParts), Required)
  {
    match file
    case None => NoEnvFile
    case Some(lines) => CheckKeys(Load(lines, KeepParts), Required)
  }

  /** The database URL as `backup_database` and `restore_database` read it: `_load_env().get('POSTGRES_URL')`. */
  function DatabaseUrl(file: Option<seq<string>>): (url: Option<string>)
    ensures url.Some? <==> file.Some? && "POSTGRES_URL" in AssignedKeys(ParseLines(file.value, StripParts))
    ensures url.Some? ==> LastValue(ParseLines(file.value, StripParts), "POSTGRES_URL", url.value)
  {
    match file
    case None => None
    case Some(lines) =>
      var env := Load(lines, StripParts);
      if "POSTGRES_URL" in env then
        CollectFromLastAssignment(ParseLines(lines, StripParts), "POSTGRES_URL");
        Some(env["POSTGRES_URL"])
      else None
  }

  /** The three required variables, spelled out. */
  lemma CheckRequiredKeys(env: map<string, string>)
    ensures CheckKeys(env, Required).Passed() <==>
      IsSet(env, "OPENAI_API_KEY") && IsSet(env, "POSTGRES_URL") && IsSet(env, "NEXT_PUBLIC_BASE_URL")
  {
  }

  /**
   * `validate_environment` passes exactly when the file exists and all three
   * required variables are present with non-empty values.
   */
  lemma ValidIffRequiredSet(file: Option<seq<string>>)
    ensures ValidateEnvironment(file).Passed() <==>
      && file.Some?
      && IsSet(Load(file.value, KeepParts), "OPENAI_API_KEY")
      && IsSet(Load(file.value, KeepParts), "POSTGRES_URL")
      && IsSet(Load(file.value, KeepParts), "NEXT_PUBLIC_BASE_URL")
  {
    if file.Some? {
      CheckRequiredKeys(Load(file.value, KeepParts));
    }
  }

  /** When a key is assigned twice, the later assignment is the one kept. */
  lemma LaterAssignmentWins(before: seq<Option<Entry>>, e: Entry, after: seq<Option<Entry>>)
    requires forall j :: 0 <= j < |after| ==> after[j].None? || after[j].value.key != e.key
    ensures e.key in Collect(before + [Some(e)] + after)
    ensures Collect(before + [Some(e)] + after)[e.key] == e.value
  {
    NotReassigned(before, e, after);
  }

  lemma NotReassigned(before: seq<Option<Entry>>, e: Entry, after: seq<Option<Entry>>)
    requires forall j :: 0 <= j < |after| ==> after[j].None? || after[j].value.key != e.key
    ensures LastAssignment(before + [Some(e)] + after, |before|, e)
  {
    var all := before + [Some(e)] + after;
    var i := |before|;
    assert all[i] == Some(e);
    forall j | i < j < |all|
      ensures !Assigns(all, j, e.key)
    {
      assert all[j] == after[j - i - 1];
    }
  }

  /**
   * A line `KEY=VALUE` with no surrounding whitespace, no `=` in the key and
   * not starting with `#` splits into exactly that key and value; the value
   * may itself contain `=`.
   */
  lemma SplitOfAssignment(k: string, v: string)
    requires |k| > 0 && k[0] != '#' && '=' !in k && !IsSpace(k[0])
    requires |v| > 0 ==> !IsSpace(v[|v| - 1])
    ensures SplitAssignment(k + "=" + v) == Some(Entry(k, v))
  {
    var line := k + "=" + v;
    AssignmentEnds(k, v);
    StripIdentity(line);
    AssignmentParts(k, v);
    IndexOfUnique(line, '=', |k|);
  }

  lemma AssignmentEnds(k: string, v: string)
    requires |k| > 0 && !IsSpace(k[0])
    requires |v| > 0 ==> !IsSpace(v[|v| - 1])
    ensures var line := k + "=" + v;
            |line| > 0 && line[0] == k[0] && !IsSpace(line[0]) && !IsSpace(line[|line| - 1])
  {
    var line := k + "=" + v;
    if |v| == 0 {
      assert line[|line| - 1] == '=';
      VisibleAsciiNotSpace('=');
    } else {
      assert line[|line| - 1] == v[|v| - 1];
    }
  }

  lemma AssignmentParts(k: string, v: string)
    requires '=' !in k
    ensures var line := k + "=" + v;
            && |k| < |line| && line[|k|] == '=' && '=' !in line[..|k|]
            && line[..|k|] == k && line[|k| + 1..] == v && '=' in line
  {
    var line := k + "=" + v;
    assert line[..|k|] == k;
    assert line[|k| + 1..] == v;
  }

  /**
   * With spaces around `=`, `validate_environment` keeps them in the key and
   * the value, while `_load_env` strips them: `K = V` is key `K ` for the one
   * and key `K` for the other.
   */
  lemma SpacedAssignment(k: string, v: string)
    requires |k| > 0 && k[0] != '#' && '=' !in k && !IsSpace(k[0]) && !IsSpace(k[|k| - 1])
    requires |v| > 0 && !IsSpace(v[0]) && !IsSpace(v[|v| - 1])
    ensures SplitAssignment(k + " = " + v) == Some(Entry(k + " ", " " + v))
    ensures ParseLine(k + " = " + v, StripParts) == Some(Entry(k, v))
  {
    assert k + " = " + v == (k + " ") + "=" + (" " + v);
    assert '=' !in k + " " by {
      assert forall c :: c in k + " " ==> c in k || c == ' ';
    }
    SplitOfAssignment(k + " ", " " + v);
    StripTrailingBlank(k);
    StripLeadingBlank(v);
  }

  lemma StripTrailingBlank(k: string)
    requires |k| > 0 && !IsSpace(k[0]) && !IsSpace(k[|k| - 1])
    ensures Strip(k + " ") == k
  {
    assert PaddedAt(k + " ", 0, k);
    StripUnique(k + " ", 0, k);
  }

  lemma StripLeadingBlank(v: string)
    requires |v| > 0 && !IsSpace(v[0]) && !IsSpace(v[|v| - 1])
    ensures Strip(" " + v) == v
  {
    assert PaddedAt(" " + v, 1, v);
    StripUnique(" " + v, 1, v);
  }
}

=== FILE: health.dfy ===
/**
 * Health checking in start.py: the outcome of one `check_health` request,
 * the bounded retry of `wait_for_health`, and the figures one `monitor`
 * iteration prints. HTTP traffic is replaced by the answers it produced.
 */
module Health {
  import opened Wrappers

  /** A decoded JSON document; numbers are integers. */
  datatype Json =
    | JNull
    | JBool(b: bool)
    | JNum(n: int)
    | JStr(s: string)
    | JArr(items: seq<Json>)
    | JObj(fields: map<string, Json>)

  /**
   * Python truthiness of the decoded value, as `if health:` tests it: the
   * falsy values are `None`, `False`, `0`, `""`, `[]` and `{}`.
   */
  function Truthy(j: Json): (t: bool)
    ensures !t <==> j == JNull || j == JBool(false) || j == JNum(0) || j == JStr("") || j == JArr([]) || j == JObj(map[])
  {
    match j
    case JNull => false
    case JBool(b) => b
    case JNum(n) => n != 0
    case JStr(s) => s != ""
    case JArr(items) => |items| > 0
    case JObj(fields) => |fields| > 0
  }

  /**
   * What one HTTP request produced: no answer at all (refused connection,
   * timeout, any other exception), or a status code with the body's JSON
   * decoding, `None` when the body is not valid JSON.
   */
  datatype Probe = Unreachable | Answered(status: int, body: Option<Json>)

  /**
   * `check_health` (and `check_ready`, `check_metrics`): the decoded body of
   * a 200 answer, and `None` otherwise. A body that decodes to JSON `null`
   * is Python's `None` as well.
   */
  function CheckEndpoint(p: Probe): (r: Option<Json>)
    ensures r.Some? <==> p.Answered? && p.status == 200 && p.body.Some? && p.body.value != JNull
    ensures r.Some? ==> r == p.body
  {
    match p
    case Unreachable => None
    case Answered(status, body) =>
      if status == 200 && body.Some? && body.value != JNull then body else None
  }

  /** `if health:` after `health = self.check_health()`. */
  predicate Healthy(p: Probe) {
    var r := CheckEndpoint(p);
    r.Some? && Truthy(r.value)
  }

  lemma HealthyMeans(p: Probe)
    ensures Healthy(p) <==> p.Answered? && p.status == 200 && p.body.Some? && Truthy(p.body.value)
  {
  }

  /** The `i`-th probe; requests past the recorded ones find nothing listening. */
  function ProbeAt(probes: seq<Probe>, i: nat): (p: Probe)
    ensures i < |probes| ==> p == probes[i]
    ensures i >= |probes| ==> p == Unreachable
  {
    if i < |probes| then probes[i] else Unreachable
  }

  /** Default `max_attempts`. */
  const DefaultAttempts := 30

  /**
   * Reference definition of the retry from attempt `i` on: whether a healthy
   * answer came, and how many probes were sent in all.
   */
  function WaitFrom(probes: seq<Probe>, i: nat, maxAttempts: int): (r: (bool, nat))
    ensures i < maxAttempts ==> i < r.1 <= maxAttempts
    ensures i >= maxAttempts ==> r == (false, i)
    ensures r.0 ==> Healthy(ProbeAt(probes, r.1 - 1))
    decreases maxAttempts - i
  {
    if i >= maxAttempts then (false, i)
    else if Healthy(ProbeAt(probes, i)) then (true, i + 1)
    else WaitFrom(probes, i + 1, maxAttempts)
  }

  /** Outcome of `wait_for_health(max_attempts)`: healthy, and the number of probes sent. */
  function HealthWait(probes: seq<Probe>, maxAttempts: int): (bool, nat) {
    WaitFrom(probes, 0, maxAttempts)
  }

  /**
   * `wait_for_health(max_attempts)`, with `probes` the answers successive
   * requests get. It reports success exactly when one of the first
   * `max_attempts` probes is healthy, stops at the first healthy one, and
   * sleeps after every failed probe.
   */
  method WaitForHealth(probes: seq<Probe>, maxAttempts: int) returns (healthy: bool, attempts: nat, sleeps: nat)
    ensures healthy <==> exists i :: 0 <= i < maxAttempts && Healthy(ProbeAt(probes, i))
    ensures forall i :: 0 <= i < attempts && (i < attempts - 1 || !healthy) ==> !Healthy(ProbeAt(probes, i))
    ensures healthy ==> 1 <= attempts <= maxAttempts && Healthy(ProbeAt(probes, attempts - 1)) && sleeps == attempts - 1
    ensures !healthy ==> attempts == sleeps && attempts == (if maxAttempts > 0 then maxAttempts else 0)
    ensures (healthy, attempts) == HealthWait(probes, maxAttempts)
  {
    healthy, attempts, sleeps := false, 0, 0;
    var i: nat := 0;
    while i < maxAttempts
      invariant maxAttempts >= 0 ==> i <= maxAttempts
      invariant maxAttempts < 0 ==> i == 0
      invariant attempts == i && sleeps == i
      invariant forall k :: 0 <= k < i ==> !Healthy(ProbeAt(probes, k))
      invariant HealthWait(probes, maxAttempts) == WaitFrom(probes, i, maxAttempts)
    {
      attempts := attempts + 1;
      if Healthy(ProbeAt(probes, i)) {
        healthy := true;
        return;
      }
      sleeps := sleeps + 1;
      i := i + 1;
    }
  }

  /** Allowing more attempts never turns a healthy outcome into a failure. */
  lemma {:induction false} MoreAttemptsNeverHurt(probes: seq<Probe>, i: nat, m: int, n: int)
    requires m <= n && WaitFrom(probes, i, m).0
    ensures WaitFrom(probes, i, n) == WaitFrom(probes, i, m)
    decreases m - i
  {
    if !Healthy(ProbeAt(probes, i)) {
      MoreAttemptsNeverHurt(probes, i + 1, m, n);
    }
  }

  /** Probes past the ones recorded never succeed: extra attempts beyond them change nothing. */
  lemma {:induction false} UnrecordedProbesFail(probes: seq<Probe>, i: nat, maxAttempts: int)
    requires |probes| <= i
    ensures WaitFrom(probes, i, maxAttempts).0 == false
    decreases maxAttempts - i
  {
    if i < maxAttempts {
      assert ProbeAt(probes, i) == Unreachable;
      UnrecordedProbesFail(probes, i + 1, maxAttempts);
    }
  }

  // ---------------------------------------------------------------------
  // One monitor iteration
  // ---------------------------------------------------------------------

  /** `uptime // 3600` and `(uptime % 3600) // 60`: Python floors, as Dafny does for a positive divisor. */
  function SplitUptime(uptime: int): (hm: (int, int))
    ensures 0 <= hm.1 < 60
    ensures hm.0 * 3600 + hm.1 * 60 <= uptime < hm.0 * 3600 + hm.1 * 60 + 60
    ensures uptime >= 0 ==> hm.0 >= 0
  {
    (uptime / 3600, (uptime % 3600) / 60)
  }

  /** The whole hours and minutes are the only ones that fit the uptime. */
  lemma SplitUptimeUnique(uptime: int, h: int, m: int)
    requires 0 <= m < 60 && h * 3600 + m * 60 <= uptime < h * 3600 + m * 60 + 60
    ensures SplitUptime(uptime) == (h, m)
  {
    var (h', m') := SplitUptime(uptime);
    var a, b := h * 60 + m, h' * 60 + m';
    assert a * 60 <= uptime < a * 60 + 60;
    assert b * 60 <= uptime < b * 60 + 60;
    assert a == b;
  }

  /**
   * `health.get('uptime', 0)`, as an integer: a bool counts as 0 or 1, and
   * any other non-number is `None`, because `// 3600` on it raises.
   */
  function UptimeSeconds(health: map<string, Json>): (u: Option<int>)
    ensures "uptime" !in health ==> u == Some(0)
    ensures "uptime" in health && health["uptime"].JNum? ==> u == Some(health["uptime"].n)
    ensures "uptime" in health && health["uptime"].JBool? ==> u == Some(if health["uptime"].b then 1 else 0)
    ensures u.None? <==> "uptime" in health && !health["uptime"].JNum? && !health["uptime"].JBool?
  {
    if "uptime" !in health then Some(0)
    else match health["uptime"]
      case JNum(n) => Some(n)
      case JBool(b) => Some(if b then 1 else 0)
      case _ => None
  }

  /** `metrics` is an object whose `memory` entry is an object holding `used`. */
  predicate ReportsUsed(metrics: Option<Json>) {
    && metrics.Some? && metrics.value.JObj? && "memory" in metrics.value.fields
    && metrics.value.fields["memory"].JObj? && "used" in metrics.value.fields["memory"].fields
  }

  /** One of the two `.get` calls meets a value that is not an object: truthy non-object metrics, or a non-object `memory`. */
  predicate GetOnNonObject(metrics: Option<Json>) {
    && metrics.Some? && Truthy(metrics.value)
    && (!metrics.value.JObj? || ("memory" in metrics.value.fields && !metrics.value.fields["memory"].JObj?))
  }

  /**
   * `metrics.get('memory', {}).get('used', 'N/A') if metrics else 'N/A'`:
   * `Some(None)` for the `N/A` text, `Some(Some(v))` for a reported value,
   * and `None` when `.get` is applied to something that is not an object.
   */
  function MemoryUsed(metrics: Option<Json>): (m: Option<Option<Json>>)
    ensures ReportsUsed(metrics) ==> m == Some(Some(metrics.value.fields["memory"].fields["used"]))
    ensures m.None? <==> GetOnNonObject(metrics)
    ensures m == Some(None) <==> !ReportsUsed(metrics) && !GetOnNonObject(metrics)
  {
    if metrics.None? || !Truthy(metrics.value) then Some(None)
    else match metrics.value
      case JObj(fields) =>
        if "memory" !in fields then Some(None)
        else (match fields["memory"]
          case JObj(inner) => if "used" in inner then Some(Some(inner["used"])) else Some(None)
          case _ => None)
      case _ => None
  }

  /** An object with a key is truthy. */
  lemma NonEmptyObject(fields: map<string, Json>, k: string)
    requires k in fields
    ensures |fields| > 0
  {
    assert k in fields.Keys;
  }

  /** The line one monitor iteration prints, or the exception that ends the loop. */
  datatype Report =
    | HealthFail
    | HealthOk(memory: Option<Json>, hours: int, minutes: int)
    | Raised

  /**
   * One iteration of `monitor`, given what the health and metrics endpoints
   * answered: `FAIL` unless the health answer is truthy; otherwise the memory
   * figure and the uptime split into hours and minutes, or an exception when
   * either cannot be computed.
   */
  function MonitorIteration(healthProbe: Probe, metricsProbe: Probe): (r: Report)
    ensures r.HealthFail? <==> !Healthy(healthProbe)
    ensures r.Raised? <==>
      && Healthy(healthProbe)
      && (|| !CheckEndpoint(healthProbe).value.JObj?
          || MemoryUsed(CheckEndpoint(metricsProbe)).None?
          || UptimeSeconds(CheckEndpoint(healthProbe).value.fields).None?)
    ensures r.HealthOk? ==>
      && MemoryUsed(CheckEndpoint(metricsProbe)).Some?
      && r.memory == MemoryUsed(CheckEndpoint(metricsProbe)).value
      && CheckEndpoint(healthProbe).Some? && CheckEndpoint(healthProbe).value.JObj?
      && UptimeSeconds(CheckEndpoint(healthProbe).value.fields).Some?
      && (r.hours, r.minutes) == SplitUptime(UptimeSeconds(CheckEndpoint(healthProbe).value.fields).value)
    ensures r.HealthOk? ==> 0 <= r.minutes < 60
    ensures r.HealthOk? && CheckEndpoint(healthProbe).value.JObj? && "uptime" !in CheckEndpoint(healthProbe).value.fields
            ==> r.hours == 0 && r.minutes == 0
  {
    if !Healthy(healthProbe) then HealthFail
    else
      var health := CheckEndpoint(healthProbe).value;
      var memory := MemoryUsed(CheckEndpoint(metricsProbe));
      if !health.JObj? || memory.None? then Raised
      else match UptimeSeconds(health.fields)
        case None => Raised
        case Some(u) =>
          var (h, m) := SplitUptime(u);
          HealthOk(memory.value, h, m)
  }

  /**
   * A healthy object answer with a numeric uptime prints that uptime split
   * into hours and minutes beside the memory figure, whatever the metrics
   * endpoint answered, unless reading the memory figure raises.
   */
  lemma MonitorShowsUptime(fields: map<string, Json>, u: int, metricsProbe: Probe)
    requires "uptime" in fields && fields["uptime"] == JNum(u)
    ensures MonitorIteration(Answered(200, Some(JObj(fields))), metricsProbe) ==
      match MemoryUsed(CheckEndpoint(metricsProbe))
      case None => Raised
      case Some(memory) => HealthOk(memory, u / 3600, (u % 3600) / 60)
  {
    NonEmptyObject(fields, "uptime");
  }
}

=== FILE: lifecycle.dfy ===
/**
 * Starting, stopping, restarting and viewing the logs of the application in
 * start.py. The host answers every question the script asks of it (which
 * files exist, whether `pm2` is installed, how each tool exits, what the
 * health endpoint says); the result is the script's return value and the
 * commands it launched.
 */
module Lifecycle {
  import opened Wrappers
  import opened Commands
  import opened Decimal
  import opened Health

  /** What the host answers while one lifecycle command runs. */
  datatype Host = Host(
    composeFile: bool,       // `docker-compose.yml` exists
    built: bool,             // `frontend/apps/app/.next` exists
    pm2: bool,               // `which pm2` exits with status 0
    composeUpOk: bool,       // `docker-compose up -d` exits with status 0
    composeDownOk: bool,     // `docker-compose down` exits with status 0
    buildOk: bool,           // `pnpm build` exits with status 0
    pm2StartOk: bool,        // `pm2 start` exits with status 0
    pm2SaveOk: bool,         // `pm2 save` exits with status 0
    applyOk: bool,           // `kubectl apply` exits with status 0
    readyOk: bool,           // `kubectl wait` exits with status 0
    probes: seq<Probe>)      // answers of the health endpoint, in order

  /** A lifecycle command's return value, the commands it launched, and the health requests it sent. */
  datatype Launch = Launch(ok: bool, commands: seq<Command>, healthProbes: nat)

  const WhichPm2: Command := ["which", "pm2"]
  const ComposeUp: Command := ["docker-compose", "up", "-d"]
  const ComposeDown: Command := ["docker-compose", "down"]
  const Build: Command := ["pnpm", "build", "--filter", "@liam-hq/app"]
  const Pm2Start: Command := ["pm2", "start", "pnpm", "--name", "liam", "--", "start", "--filter", "@liam-hq/app"]
  const Pm2Save: Command := ["pm2", "save"]
  const PnpmStart: Command := ["pnpm", "start", "--filter", "@liam-hq/app"]
  const Pm2Stop: Command := ["pm2", "stop", "liam"]
  const Pm2Delete: Command := ["pm2", "delete", "liam"]
  const KubeApply: Command := ["kubectl", "apply", "-f", "k8s/", "--namespace=liam"]
  const KubeReady: Command := ["kubectl", "wait", "--for=condition=ready", "pod", "-l", "app=liam", "--timeout=300s", "--namespace=liam"]

  /** Health requests `wait_for_health()` sends with its default attempt count. */
  function WaitProbes(h: Host): nat {
    HealthWait(h.probes, DefaultAttempts).1
  }

  /**
   * `start_docker`: refuses without a compose file; otherwise succeeds
   * exactly when the containers come up, whatever the health wait says.
   */
  function StartDocker(h: Host): (r: Launch)
    ensures !h.composeFile ==> r == Launch(false, [], 0)
    ensures h.composeFile ==> r.commands == [ComposeUp]
    ensures r.ok <==> h.composeFile && h.composeUpOk
    ensures r.healthProbes > 0 <==> r.ok
  {
    if !h.composeFile then Launch(false, [], 0)
    else if !h.composeUpOk then Launch(false, [ComposeUp], 0)
    else Launch(true, [ComposeUp], WaitProbes(h))
  }

  /**
   * The commands `start_traditional` launches: the build when no output
   * exists, and once a build is in place `which pm2`, then pm2's start and
   * (after a successful start) save, or `pnpm start` without pm2.
   */
  function TraditionalCommands(h: Host): (cs: seq<Command>)
    ensures !h.built <==> |cs| > 0 && cs[0] == Build
    ensures forall c :: c in cs ==> c in [Build, WhichPm2, Pm2Start, Pm2Save, PnpmStart]
    ensures WhichPm2 in cs <==> h.built || h.buildOk
    ensures Pm2Start in cs <==> (h.built || h.buildOk) && h.pm2
    ensures Pm2Save in cs <==> (h.built || h.buildOk) && h.pm2 && h.pm2StartOk
    ensures PnpmStart in cs <==> (h.built || h.buildOk) && !h.pm2
  {
    (if h.built then [] else [Build])
    + (if h.built || h.buildOk
       then [WhichPm2] + (if h.pm2 then [Pm2Start] + (if h.pm2StartOk then [Pm2Save] else []) else [PnpmStart])
       else [])
  }

  /**
   * `start_traditional`: builds when no build output exists, then starts
   * under pm2 when it is installed (start and save must both succeed) or
   * else spawns `pnpm start` in the background, and waits for health.
   */
  function StartTraditional(h: Host): (r: Launch)
    ensures r.ok <==> (h.built || h.buildOk) && (h.pm2 ==> h.pm2StartOk && h.pm2SaveOk)
    ensures !h.built <==> |r.commands| > 0 && r.commands[0] == Build
    ensures r.ok ==> |r.commands| > 0 && r.commands[|r.commands| - 1] == (if h.pm2 then Pm2Save else PnpmStart)
    ensures forall c :: c in r.commands ==> c in [Build, WhichPm2, Pm2Start, Pm2Save, PnpmStart]
    ensures r.commands == (if h.built then [] else [Build])
                          + (if h.built || h.buildOk
                             then [WhichPm2] + (if h.pm2 then [Pm2Start] + (if h.pm2StartOk then [Pm2Save] else []) else [PnpmStart])
                             else [])
    ensures WhichPm2 in r.commands <==> h.built || h.buildOk
    ensures Pm2Start in r.commands <==> (h.built || h.buildOk) && h.pm2
    ensures Pm2Save in r.commands <==> (h.built || h.buildOk) && h.pm2 && h.pm2StartOk
    ensures PnpmStart in r.commands <==> (h.built || h.buildOk) && !h.pm2
    ensures r.healthProbes > 0 <==> r.ok
  {
    var ok := (h.built || h.buildOk) && (h.pm2 ==> h.pm2StartOk && h.pm2SaveOk);
    Launch(ok, TraditionalCommands(h), if ok then WaitProbes(h) else 0)
  }

  /** `start_kubernetes`: apply the manifests, then wait for the pods; no health probing. */
  function StartKubernetes(h: Host): (r: Launch)
    ensures r.ok <==> h.applyOk && h.readyOk
    ensures r.healthProbes == 0
    ensures r.commands == if h.applyOk then [KubeApply, KubeReady] else [KubeApply]
  {
    if !h.applyOk then Launch(false, [KubeApply], 0)
    else Launch(h.readyOk, [KubeApply, KubeReady], 0)
  }

  /** `start(deployment)`: an unknown deployment fails without launching anything. */
  function Start(deployment: string, h: Host): (r: Launch)
    ensures deployment == "docker" ==> r == StartDocker(h)
    ensures deployment == "kubernetes" ==> r == StartKubernetes(h)
    ensures deployment == "traditional" ==> r == StartTraditional(h)
    ensures deployment !in {"docker", "kubernetes", "traditional"} ==> r == Launch(false, [], 0)
  {
    if deployment == "docker" then StartDocker(h)
    else if deployment == "kubernetes" then StartKubernetes(h)
    else if deployment == "traditional" then StartTraditional(h)
    else Launch(false, [], 0)
  }

  /** `stop_docker`. */
  function StopDocker(h: Host): (r: Launch)
    ensures r.ok <==> h.composeDownOk
    ensures r.commands == [ComposeDown]
  {
    Launch(h.composeDownOk, [ComposeDown], 0)
  }

  /** `stop_traditional`: stops and deletes the pm2 process when pm2 is installed, ignoring their exits. */
  function StopTraditional(h: Host): (r: Launch)
    ensures r.ok
    ensures h.pm2 <==> Pm2Stop in r.commands
    ensures r.commands == if h.pm2 then [WhichPm2, Pm2Stop, Pm2Delete] else [WhichPm2]
  {
    if h.pm2 then Launch(true, [WhichPm2, Pm2Stop, Pm2Delete], 0)
    else Launch(true, [WhichPm2], 0)
  }

  /** `stop(deployment)`: only docker and traditional deployments can be stopped. */
  function Stop(deployment: string, h: Host): (r: Launch)
    ensures deployment == "docker" ==> r == StopDocker(h)
    ensures deployment == "traditional" ==> r == StopTraditional(h)
    ensures deployment !in {"docker", "traditional"} ==> r == Launch(false, [], 0)
  {
    if deployment == "docker" then StopDocker(h)
    else if deployment == "traditional" then StopTraditional(h)
    else Launch(false, [], 0)
  }

  /**
   * `restart(method)`: stop, pause, start with the same method; the host may
   * answer differently in the two phases. Stop's result is discarded.
   */
  function Restart(deployment: string, whileStopping: Host, whileStarting: Host): (r: Launch)
    ensures r.ok == Start(deployment, whileStarting).ok
    ensures r.commands == Stop(deployment, whileStopping).commands + Start(deployment, whileStarting).commands
  {
    var stopped := Stop(deployment, whileStopping);
    var started := Start(deployment, whileStarting);
    Launch(started.ok, stopped.commands + started.commands, started.healthProbes)
  }

  /** Whether the application answers healthy after starting never changes what `start` returns. */
  lemma StartIgnoresHealth(deployment: string, h: Host, probes: seq<Probe>)
    ensures Start(deployment, h.(probes := probes)).ok == Start(deployment, h).ok
    ensures Start(deployment, h.(probes := probes)).commands == Start(deployment, h).commands
  {
  }

  /** Restarting a Kubernetes deployment stops nothing, but still deploys. */
  lemma RestartKubernetes(whileStopping: Host, whileStarting: Host)
    ensures Restart("kubernetes", whileStopping, whileStarting).ok <==> whileStarting.applyOk && whileStarting.readyOk
    ensures Restart("kubernetes", whileStopping, whileStarting).commands[0] == KubeApply
  {
  }

  // ---------------------------------------------------------------------
  // logs
  // ---------------------------------------------------------------------

  /**
   * The command `logs(follow, lines)` runs: pm2's log view when pm2 is
   * installed, else the compose logs of the `app` service when a compose
   * file exists, else nothing.
   */
  function LogsCommand(follow: bool, lines: int, pm2: bool, composeFile: bool): (c: Option<Command>)
    ensures c.None? <==> !pm2 && !composeFile
    ensures pm2 ==> |c.value| >= 3 && c.value[..3] == ["pm2", "logs", "liam"] && (|c.value| == 3 <==> follow)
    ensures pm2 && !follow ==> |c.value| == 6 && c.value[3] == "--lines" && c.value[5] == "--nostream"
    ensures !pm2 && composeFile ==> |c.value| >= 3 && c.value[..2] == ["docker-compose", "logs"] && c.value[|c.value| - 1] == "app"
    ensures !pm2 && composeFile ==> (follow <==> c.value == ["docker-compose", "logs", "-f", "app"])
    ensures !pm2 && composeFile && !follow ==> |c.value| == 5 && c.value[2] == "--tail"
  {
    if pm2 then
      Some(["pm2", "logs", "liam"] + (if follow then [] else ["--lines", IntToString(lines), "--nostream"]))
    else if composeFile then
      Some(["docker-compose", "logs"] + (if follow then ["-f"] else ["--tail", IntToString(lines)]) + ["app"])
    else None
  }

  /** The line count handed to pm2 or docker-compose reads back as the requested number. */
  lemma LogsLineCount(lines: int, pm2: bool, composeFile: bool)
    requires pm2 || composeFile
    ensures pm2 ==> ParseInt(LogsCommand(false, lines, pm2, composeFile).value[4]) == Some(lines)
    ensures !pm2 ==> ParseInt(LogsCommand(false, lines, pm2, composeFile).value[3]) == Some(lines)
  {
    IntToStringRoundTrip(lines);
  }
}

=== FILE: paths.dfy ===
/**
 * The pieces of Python's `pathlib.PurePosixPath` the backup scripts use:
 * `name`, `suffix` and `with_suffix('')`. Paths are taken in normalised
 * form (no trailing `/`, no `.` components).
 */
module Paths {

  /** Index of the last `c` in `s`, or -1 when there is none (Python's `rfind`). */
  function LastIndex(s: string, c: char): (i: int)
    ensures -1 <= i < |s|
    ensures i >= 0 ==> s[i] == c
    ensures forall j :: i < j < |s| ==> s[j] != c
  {
    if |s| == 0 then -1
    else if s[|s| - 1] == c then |s| - 1
    else LastIndex(s[..|s| - 1], c)
  }

  /** The last occurrence is the one with no occurrence after it. */
  lemma LastIndexUnique(s: string, c: char, i: int)
    requires -1 <= i < |s| && (i >= 0 ==> s[i] == c)
    requires forall j :: i < j < |s| ==> s[j] != c
    ensures LastIndex(s, c) == i
  {
  }

  /** `Path(p).name`: everything after the last `/`. */
  function BaseName(p: string): (name: string)
    ensures |name| <= |p| && p[|p| - |name|..] == name
    ensures '/' !in name
    ensures |name| < |p| ==> p[|p| - |name| - 1] == '/'
  {
    var k := LastIndex(p, '/');
    AfterLastSlash(p, k);
    p[k + 1..]
  }

  /** What follows the last `/` holds no `/`, and is preceded by that `/` when there is one. */
  lemma AfterLastSlash(p: string, k: int)
    requires -1 <= k < |p| && (k >= 0 ==> p[k] == '/')
    requires forall j :: k < j < |p| ==> p[j] != '/'
    ensures '/' !in p[k + 1..]
    ensures |p[k + 1..]| < |p| ==> p[|p| - |p[k + 1..]| - 1] == '/'
  {
    NoSlashInTail(p, k);
    assert |p[k + 1..]| == |p| - (k + 1);
  }

  lemma NoSlashInTail(p: string, k: int)
    requires -1 <= k < |p|
    requires forall j :: k < j < |p| ==> p[j] != '/'
    ensures '/' !in p[k + 1..]
  {
    var name := p[k + 1..];
    forall j | 0 <= j < |name|
      ensures name[j] != '/'
    {
      assert name[j] == p[k + 1 + j];
    }
  }

  /**
   * `Path(p).suffix`: the final component's text from its last `.`, provided
   * that dot is neither the first nor the last character of the component.
   */
  function Suffix(p: string): (x: string)
    ensures |x| <= |p| && p[|p| - |x|..] == x
    ensures x == "" || (|x| >= 2 && x[0] == '.' && '.' !in x[1..] && '/' !in x)
    ensures x != "" ==> |x| < |BaseName(p)|
    ensures x != "" <==> 0 < LastIndex(BaseName(p), '.') < |BaseName(p)| - 1
    ensures x != "" ==> x == BaseName(p)[LastIndex(BaseName(p), '.')..]
  {
    var name := BaseName(p);
    var i := LastIndex(name, '.');
    if 0 < i < |name| - 1 then
      var x := name[i..];
      TailOfComponent(p, name, i);
      x
    else ""
  }

  lemma TailOfComponent(p: string, name: string, i: int)
    requires |name| <= |p| && p[|p| - |name|..] == name && '/' !in name
    requires 0 < i < |name| - 1 && forall j :: i < j < |name| ==> name[j] != '.'
    ensures p[|p| - |name[i..]|..] == name[i..]
    ensures '.' !in name[i..][1..] && '/' !in name[i..]
  {
    var x := name[i..];
    forall j | 0 <= j < |x[1..]|
      ensures x[1..][j] != '.'
    {
      assert x[1..][j] == name[i + 1 + j];
    }
    forall j | 0 <= j < |x|
      ensures x[j] != '/'
    {
      assert x[j] == name[i + j];
      assert name[i + j] in name;
    }
    DropDrop(p, |p| - |name|, i);
    assert p[|p| - |name|..][i..] == name[i..];
    assert |p| - |x| == |p| - |name| + i;
  }

  lemma TakeDrop(s: string, k: nat)
    requires k <= |s|
    ensures s[..k] + s[k..] == s
  {
  }

  lemma DropDrop(s: string, a: nat, i: nat)
    requires a + i <= |s|
    ensures s[a..][i..] == s[a + i..]
  {
  }

  /** `Path(p).with_suffix('')`: the path with its suffix (if any) removed. */
  function WithoutSuffix(p: string): (q: string)
    ensures q + Suffix(p) == p
  {
    var x := Suffix(p);
    TakeDrop(p, |p| - |x|);
    p[..|p| - |x|]
  }

  /** Appending text without `/` extends the final component. */
  lemma BaseNameAppend(p: string, tail: string)
    requires '/' !in tail
    ensures BaseName(p + tail) == BaseName(p) + tail
  {
    var q := p + tail;
    var k := LastIndex(p, '/');
    NoSlashAfter(p, tail, k);
    LastIndexUnique(q, '/', k);
    DropAppend(p, tail, k + 1);
  }

  lemma NoSlashAfter(p: string, tail: string, k: int)
    requires '/' !in tail
    requires -1 <= k < |p| && (k >= 0 ==> p[k] == '/')
    requires forall j :: k < j < |p| ==> p[j] != '/'
    ensures k >= 0 ==> (p + tail)[k] == '/'
    ensures forall j :: k < j < |p + tail| ==> (p + tail)[j] != '/'
  {
    var q := p + tail;
    forall j | k < j < |q|
      ensures q[j] != '/'
    {
      if j >= |p| {
        assert q[j] == tail[j - |p|];
      } else {
        assert q[j] == p[j];
      }
    }
  }

  lemma DropAppend(p: string, tail: string, i: nat)
    requires i <= |p|
    ensures (p + tail)[i..] == p[i..] + tail
  {
  }

  lemma SuffixAtDot(p: string, i: int)
    requires LastIndex(BaseName(p), '.') == i && 0 < i < |BaseName(p)| - 1
    ensures Suffix(p) == BaseName(p)[i..]
  {
  }

  lemma GzDot(stem: string)
    requires |stem| > 0
    ensures LastIndex(stem + ".gz", '.') == |stem|
  {
    var name := stem + ".gz";
    assert name[|stem|] == '.';
    assert name[|stem| + 1] != '.' && name[|stem| + 2] != '.';
    LastIndexUnique(name, '.', |stem|);
  }

  lemma GzSuffix(p: string)
    requires BaseName(p) != ""
    ensures Suffix(p + ".gz") == ".gz"
  {
    var q := p + ".gz";
    BaseNameAppend(p, ".gz");
    var name := BaseName(q);
    GzDot(BaseName(p));
    SuffixAtDot(q, |name| - 3);
    assert name[|name| - 3..] == ".gz";
  }

  /**
   * Appending `.gz` to a path with a non-empty final component gives a path
   * whose suffix is `.gz`, and removing that suffix gives back the path.
   */
  lemma GzRoundTrip(p: string)
    requires BaseName(p) != ""
    ensures Suffix(p + ".gz") == ".gz"
    ensures WithoutSuffix(p + ".gz") == p
  {
    GzSuffix(p);
    var q := p + ".gz";
    assert q[..|q| - 3] == p;
  }

  /** `dir / name` for a name without `/`. */
  function Join(dir: string, name: string): string {
    dir + "/" + name
  }

  lemma JoinAppend(dir: string, name: string, tail: string)
    ensures Join(dir, name + tail) == Join(dir, name) + tail
  {
  }

  lemma BaseNameOfJoin(dir: string, name: string)
    requires '/' !in name
    ensures BaseName(Join(dir, name)) == name
  {
    assert Join(dir, name) == (dir + "/") + name;
    BaseNameAppend(dir + "/", name);
    assert BaseName(dir + "/") == "";
  }
}

=== FILE: text.dfy ===
/**
 * String helpers the two scripts rely on: Python's `str.strip()`, the first
 * occurrence of a character, prefix and infix tests, ASCII lower-casing and
 * the code-point order in which Python compares strings.
 */
module Text {

  /** The characters for which Python's `str.isspace()` holds, the plain space first. */
  const Whitespace: string :=
    " \t\n\U{0b}\U{0c}\r\U{1c}\U{1d}\U{1e}\U{1f}\U{85}\U{a0}\U{1680}"
    + "\U{2000}\U{2001}\U{2002}\U{2003}\U{2004}\U{2005}\U{2006}\U{2007}\U{2008}\U{2009}\U{200a}"
    + "\U{2028}\U{2029}\U{202f}\U{205f}\U{3000}"

  /** `c` occurs in `table`, checked one entry at a time. */
  predicate InTable(c: char, table: string) {
    |table| > 0 && (table[0] == c || InTable(c, table[1..]))
  }

  predicate IsSpace(c: char) {
    InTable(c, Whitespace)
  }

  lemma {:induction false} NotInTable(c: char, table: string)
    requires forall i :: 0 <= i < |table| ==> table[i] != c
    ensures !InTable(c, table)
  {
    if |table| > 0 {
      NotInTable(c, table[1..]);
    }
  }

  /** No visible ASCII character is whitespace. */
  lemma VisibleAsciiNotSpace(c: char)
    requires '!' <= c <= '~'
    ensures !IsSpace(c)
  {
    assert forall i :: 0 <= i < |Whitespace| ==> Whitespace[i] < '!' || Whitespace[i] > '~';
    NotInTable(c, Whitespace);
  }

  predicate AllSpace(s: string) {
    forall i :: 0 <= i < |s| ==> IsSpace(s[i])
  }

  /** `s` is `r` with only whitespace before it (`s[..a]`) and after it. */
  predicate PaddedAt(s: string, a: int, r: string) {
    && 0 <= a
    && a + |r| <= |s|
    && s[a..a + |r|] == r
    && AllSpace(s[..a])
    && AllSpace(s[a + |r|..])
  }

  /** Number of leading whitespace characters. */
  function LeadingSpace(s: string): (n: nat)
    ensures n <= |s|
    ensures AllSpace(s[..n])
    ensures n == |s| || !IsSpace(s[n])
  {
    if |s| == 0 || !IsSpace(s[0]) then 0
    else
      var n := 1 + LeadingSpace(s[1..]);
      assert s[..n] == [s[0]] + s[1..][..n - 1];
      n
  }

  /** Number of trailing whitespace characters. */
  function TrailingSpace(s: string): (n: nat)
    ensures n <= |s|
    ensures AllSpace(s[|s| - n..])
    ensures n == |s| || !IsSpace(s[|s| - n - 1])
  {
    if |s| == 0 || !IsSpace(s[|s| - 1]) then 0
    else
      var init := s[..|s| - 1];
      var m := TrailingSpace(init);
      var n := m + 1;
      TrailingStep(s, init, m);
      n
  }

  lemma TrailingStep(s: string, init: string, m: nat)
    requires |s| > 0 && init == s[..|s| - 1] && IsSpace(s[|s| - 1])
    requires m <= |init| && AllSpace(init[|init| - m..])
    ensures AllSpace(s[|s| - (m + 1)..])
  {
    forall k | |s| - (m + 1) <= k < |s|
      ensures IsSpace(s[k])
    {
      if k < |s| - 1 {
        assert s[k] == init[|init| - m..][k - (|init| - m)];
      }
    }
  }

  /** Python's `s.strip()`: the longest infix of `s` that neither starts nor ends with whitespace. */
  function Strip(s: string): (r: string)
    ensures |r| <= |s|
    ensures |r| == 0 || (!IsSpace(r[0]) && !IsSpace(r[|r| - 1]))
    ensures exists a :: PaddedAt(s, a, r)
    ensures |r| == 0 <==> AllSpace(s)
  {
    var a := LeadingSpace(s);
    var rest := s[a..];
    var b := TrailingSpace(rest);
    var r := rest[..|rest| - b];
    assert s[a..a + |r|] == r;
    assert s[a + |r|..] == rest[|rest| - b..];
    assert PaddedAt(s, a, r);
    PaddingAllSpace(s, a, r);
    r
  }

  /** A string padded around an empty core is all whitespace, and vice versa when the core has a non-space end. */
  lemma PaddingAllSpace(s: string, a: int, r: string)
    requires PaddedAt(s, a, r)
    requires |r| == 0 || !IsSpace(r[0])
    ensures |r| == 0 <==> AllSpace(s)
  {
    if |r| == 0 {
      forall i | 0 <= i < |s|
        ensures IsSpace(s[i])
      {
        if i < a {
          assert s[i] == s[..a][i];
        } else {
          assert s[i] == s[a..][i - a];
        }
      }
    } else {
      assert s[a] == r[0];
    }
  }

  /** Position of the first occurrence of `c` in `s`. */
  function IndexOf(s: string, c: char): (i: nat)
    requires c in s
    ensures i < |s| && s[i] == c
    ensures c !in s[..i]
  {
    if s[0] == c then 0
    else
      var i := 1 + IndexOf(s[1..], c);
      assert s[..i] == [s[0]] + s[1..][..i - 1];
      i
  }

  /** The first occurrence is the one with none before it. */
  lemma IndexOfUnique(s: string, c: char, i: int)
    requires 0 <= i < |s| && s[i] == c && c !in s[..i]
    ensures IndexOf(s, c) == i
  {
  }

  predicate StartsWith(s: string, prefix: string) {
    |prefix| <= |s| && s[..|prefix|] == prefix
  }

  /** `pattern` occurs in `s` starting at index `i`. */
  predicate OccursAt(s: string, pattern: string, i: int) {
    0 <= i && i + |pattern| <= |s| && s[i..i + |pattern|] == pattern
  }

  predicate Contains(s: string, pattern: string) {
    exists i :: 0 <= i <= |s| - |pattern| && OccursAt(s, pattern, i)
  }

  /** ASCII part of Python's `str.lower()`. */
  function LowerChar(c: char): char {
    if 'A' <= c <= 'Z' then (c as int + 32) as char else c
  }

  function Lower(s: string): (r: string)
    ensures |r| == |s|
    ensures forall i :: 0 <= i < |s| ==> r[i] == LowerChar(s[i])
  {
    seq(|s|, i requires 0 <= i < |s| => LowerChar(s[i]))
  }

  /**
   * Python's `a < b` on strings: code-point lexicographic order in which a
   * proper prefix comes first.
   */
  predicate LexLess(a: string, b: string) {
    if |a| == 0 then |b| > 0
    else |b| > 0 && (a[0] < b[0] || (a[0] == b[0] && LexLess(a[1..], b[1..])))
  }

  /**
   * `a < b` holds exactly when `a` is a proper prefix of `b`, or when the
   * two agree up to some index at which `a` has the smaller character.
   */
  lemma {:induction false} LexLessMeans(a: string, b: string)
    ensures LexLess(a, b) <==> (|a| < |b| && b[..|a|] == a)
                               || exists k :: 0 <= k < |a| && k < |b| && a[..k] == b[..k] && a[k] < b[k]
  {
    if |a| > 0 && |b| > 0 {
      LexLessMeans(a[1..], b[1..]);
      if a[0] == b[0] {
        if k :| 0 <= k < |a[1..]| && k < |b[1..]| && a[1..][..k] == b[1..][..k] && a[1..][k] < b[1..][k] {
          assert a[..k + 1] == [a[0]] + a[1..][..k] && b[..k + 1] == [b[0]] + b[1..][..k];
        }
        if k :| 0 <= k < |a| && k < |b| && a[..k] == b[..k] && a[k] < b[k] {
          assert k > 0;
          assert a[1..][..k - 1] == a[1..k] == b[1..k] == b[1..][..k - 1];
        }
        if |a| < |b| && b[..|a|] == a {
          assert b[1..][..|a[1..]|] == a[1..];
        }
        if |a[1..]| < |b[1..]| && b[1..][..|a[1..]|] == a[1..] {
          assert b[..|a|] == [b[0]] + b[1..][..|a[1..]|];
        }
      } else {
        assert a[..0] == b[..0];
        if k :| 0 <= k < |a| && k < |b| && a[..k] == b[..k] && a[k] < b[k] {
          if k > 0 {
            assert a[0] == a[..k][0] == b[..k][0] == b[0];
          }
        }
      }
    }
  }

  predicate LexLessEq(a: string, b: string) {
    a == b || LexLess(a, b)
  }

  lemma {:induction false} LexLessIrreflexive(a: string)
    ensures !LexLess(a, a)
  {
    if |a| > 0 {
      LexLessIrreflexive(a[1..]);
    }
  }

  lemma {:induction false} LexLessTransitive(a: string, b: string, c: string)
    requires LexLess(a, b) && LexLess(b, c)
    ensures LexLess(a, c)
  {
    if |a| > 0 && a[0] == b[0] && b[0] == c[0] {
      LexLessTransitive(a[1..], b[1..], c[1..]);
    }
  }

  /** Any two different strings are ordered one way or the other. */
  lemma {:induction false} LexLessTotal(a: string, b: string)
    requires a != b
    ensures LexLess(a, b) || LexLess(b, a)
  {
    if |a| > 0 && |b| > 0 && a[0] == b[0] {
      assert a == [a[0]] + a[1..] && b == [b[0]] + b[1..];
      LexLessTotal(a[1..], b[1..]);
    }
  }

  lemma LexLessAsymmetric(a: string, b: string)
    requires LexLess(a, b)
    ensures !LexLess(b, a)
  {
    if LexLess(b, a) {
      LexLessTransitive(a, b, a);
      LexLessIrreflexive(a);
    }
  }

  /**
   * Comparing two strings that start with blocks of the same length decides on
   * the blocks first and looks at the rest only when the blocks are equal.
   */
  lemma {:induction false} LexLessConcat(x1: string, y1: string, x2: string, y2: string)
    requires |x1| == |x2|
    ensures LexLess(x1 + y1, x2 + y2) <==> LexLess(x1, x2) || (x1 == x2 && LexLess(y1, y2))
  {
    if |x1| > 0 {
      assert (x1 + y1)[1..] == x1[1..] + y1;
      assert (x2 + y2)[1..] == x2[1..] + y2;
      LexLessConcat(x1[1..], y1, x2[1..], y2);
      if x1[0] == x2[0] && x1[1..] == x2[1..] {
        assert x1 == [x1[0]] + x1[1..] && x2 == [x2[0]] + x2[1..];
      }
    } else {
      assert x1 + y1 == y1 && x2 + y2 == y2;
    }
  }

  lemma StartBound(s: string, a: int, a': int)
    requires 0 <= a < |s| && 0 <= a' <= |s|
    requires AllSpace(s[..a'])
    requires !IsSpace(s[a])
    ensures a' <= a
  {
  }

  lemma EndBound(s: string, e: int, e': int)
    requires 0 < e <= |s| && 0 <= e' <= |s|
    requires AllSpace(s[e'..])
    requires !IsSpace(s[e - 1])
    ensures e <= e'
  {
  }

  /** A string with non-space ends is its own strip. */
  lemma StripIdentity(s: string)
    requires |s| > 0 && !IsSpace(s[0]) && !IsSpace(s[|s| - 1])
    ensures Strip(s) == s
  {
    assert s[..0] == [] && s[|s|..] == [] && s[0..|s|] == s;
    assert PaddedAt(s, 0, s);
    StripUnique(s, 0, s);
  }

  lemma StripUnique(s: string, a: int, r: string)
    requires PaddedAt(s, a, r)
    requires |r| > 0 && !IsSpace(r[0]) && !IsSpace(r[|r| - 1])
    ensures Strip(s) == r
  {
    var r' := Strip(s);
    var a' :| PaddedAt(s, a', r');
    assert s[a] == r[0];
    assert s[a + |r| - 1] == r[|r| - 1];
    assert |r'| > 0;
    assert s[a'] == r'[0];
    assert s[a' + |r'| - 1] == r'[|r'| - 1];
    StartBound(s, a, a');
    StartBound(s, a', a);
    EndBound(s, a + |r|, a' + |r'|);
    EndBound(s, a' + |r'|, a + |r|);
  }
}

=== FILE: wrappers.dfy ===
/** The optional-value datatype shared by every module of the model. */
module Wrappers {

  /** `None` stands for Python's `None` (a missing key, a failed probe, no command). */
  datatype Option<+T> = None | Some(value: T)
}
